=== FILE: README.md ===
# Branching dialogue runtime, modelled in Dafny

This project models the core of a Unity dialogue system that exists in two
generations.

- **The newer generation (`DialogueEditor`).** A `DialogueSet` is a node of
  dialogue lines. It has a set type (Basic or PlayerAnswer), two playback
  flags ("play only one line", "play randomly") and a private pool of unused
  line indexes, which it draws from without replacement. The
  `DialogueReader` plays a dialogue line by line. Each line either continues
  at once, waits for a mouse click, or waits for a timer. A line's link
  token leads to the next set. Answer sets are handed to the player.
- **The older generation (`DialogEditor`).** A `Dialog` holds `DialogSet`
  nodes (Basic, PlayerAnswer or Condition), with the editor operations that
  add, remove, retype and flag them. The `DialogReader` walks from the
  starting set. It shows every line of a Basic set, then follows the link
  token of the set's last line.

## Modules

| module | file | models |
|---|---|---|
| `Wrappers` | wrappers.dfy | `Option`, which stands for C# `null` |
| `Lists` | lists.dfy | `List.Remove` (first equal element), first-match search, distinctness |
| `DialogueEnums` | dialogue_enums.dfy | the enums of the newer generation and their ordinals |
| `Presentation` | presentation.dfy | font-colour choice and line-descriptor lookup, shared by both readers |
| `DialogueSets` | dialogue_set.dfy | the newer `DialogueSet`: editing and the random pool |
| `DialogueReading` | dialogue_reader.dfy | the newer `DialogueReader`, as a state machine over inputs |
| `DialogSets` | dialog_set.dfy | the older `DialogSet` |
| `Dialogs` | dialog.dfy | the older `Dialog` |
| `DialogReading` | dialog_reader.dfy | the older `DialogReader`: the walk, and the waits between lines |

How the model stands in for the runtime:

- **Randomness.** `UnityEngine.Random.Range(0, n)` is a `roll: nat` parameter, mapped to a position below `n` by `RollPosition`.
- **The clock and the mouse.** These are inputs (`Elapsed`, `Click`, `TimeUp`).
- **The descriptor.** The Lua line descriptor is a map from line id to locale to text. A missing id is the null dereference the source would hit. In the newer reader this is a `Faulted` event; in the older one, a `Stopped` walk.
- **Coroutines.** The newer reader's coroutines are a single pending wait. Its click delegate is a stored continuation.

The code behaves as follows, which a reader might not expect; the model does the same:

- **The random pool is not reset.** Once a random set has drawn every line, the pool stays empty rather than being refilled. The next draw returns -1 and only then nulls the pool. Re-entering the set therefore shows line -1, which throws (`NoResetAfterExhaustion`, `ReentryAfterExhaustionFaults`).
- **The end event can fire again.** When the end of the dialogue is reached from a click continuation, the click handler stays registered, so every further click fires the end event again (`ClickAfterEndRefiresEnd`).
- **The older `AddNewContent` keeps old links.** Unlike the newer one, it does not clear the link of the previous last line. Appending to a Basic set can therefore break the rule that only the last line links onwards (`DialogSets.EditingAndLinksOnlyOnLast`).
- **`Dialog.ProcessEvent` reacts to any Delete event.** It does not check that the event is a key press.

There are also name mismatches in the older source:

- `DialogReader.DisplayDialog` calls `m_dialog.GetFirstSet()`, but `Dialog` declares that method as the parameterless `GetNextSet()`. The model uses the latter (`Dialogs.GetStartingSet`).
- `Dialog.GetNextSet(int)` reads `NodeToken`, but the older `DialogSet` exposes `PartToken`. Both are taken to be the set's token.
- The older `DialogLine` and `WaitingType` are not part of this model. The older line is taken to have the same fields as the newer one, and the newer `WaitingType` is reused.

## Model

| member | source | states |
|---|---|---|
| DialogueEnums.SetTypeOfOrdinal | DialogueEditor/Assets/Scripts/Dialogue/Datas/EnumHolder.cs:6-10 | exactly the ordinals 0 and 1 name a set type |
| DialogueEnums.SetTypeOrdinalRoundTrip | DialogueEditor/Assets/Scripts/Dialogue/Datas/EnumHolder.cs:6-10 | a set type and its ordinal convert into each other without loss |
| DialogueEnums.DefaultSetType | DialogueEditor/Assets/Scripts/Dialogue/Datas/DialogueSet.cs:15 | a new set's type is the enum member with ordinal 0 |
| DialogueEnums.AllWaitingTypes | DialogueEditor/Assets/Scripts/Dialogue/Datas/EnumHolder.cs:15-20 | there are exactly three waiting types, each at its ordinal |
| DialogueEnums.AllStarters | DialogueEditor/Assets/Scripts/Dialogue/Datas/EnumHolder.cs:27-30 | `Default` is the one and only starter |
| Presentation.PickColor | DialogueEditor/Assets/Scripts/Dialogue/Reader/DialogueReader.cs:196-203 | the default colour under the override flag or when no entry names the character; otherwise the colour of the first entry that does |
| Presentation.Lookup | DialogEditor/Assets/Scripts/Dialog/Reader/DialogReader.cs:120-124 | a missing id is the null dereference; a missing locale gives the null string; otherwise the stored text |
| DialogueSets.NewDialogueSet | DialogueEditor/Assets/Scripts/Dialogue/Datas/DialogueSet.cs:45-59 | a new set has the rolled token (never the no-link token -1), exactly one line, the default type, both flags off and no pool |
| DialogueSets.AddNewContent | DialogueEditor/Assets/Scripts/Dialogue/Datas/DialogueSet.cs:69-81 | the line is appended; in a Basic set the old last line loses its link; nothing else changes |
| DialogueSets.ChangeType | DialogueEditor/Assets/Scripts/Dialogue/Datas/DialogueSet.cs:87-105 | becoming Basic unlinks every line but the last; becoming PlayerAnswer keeps all lines |
| DialogueSets.RemoveContent | DialogueEditor/Assets/Scripts/Dialogue/Datas/DialogueSet.cs:196-203 | the first equal line is removed and the others keep their order; an absent line changes nothing |
| DialogueSets.EditingKeepsLinksOnlyOnLast | DialogueEditor/Assets/Scripts/Dialogue/Datas/DialogueSet.cs:69-105 | the constructor, appending, retyping to Basic and removing all keep "only the last line of a Basic set links" |
| DialogueSets.RemainingIndexesCount | DialogueEditor/Assets/Scripts/Dialogue/Datas/DialogueSet.cs:24-31 | 0 for the null pool, the pool length otherwise |
| DialogueSets.EffectivePool | DialogueEditor/Assets/Scripts/Dialogue/Datas/DialogueSet.cs:231-238 | a null pool is rebuilt as 0 .. count-1 in order |
| DialogueSets.EffectivePoolValid | DialogueEditor/Assets/Scripts/Dialogue/Datas/DialogueSet.cs:231-238 | the pool drawn from holds distinct indexes of lines of the set |
| DialogueSets.RollPosition | DialogueEditor/Assets/Scripts/Dialogue/Datas/DialogueSet.cs:244 | the rolled position is below the pool length, and a roll below it is taken as is |
| DialogueSets.GetNextRandomIndex | DialogueEditor/Assets/Scripts/Dialogue/Datas/DialogueSet.cs:229-251 | an empty pool gives -1 and is nulled; otherwise the element at the rolled position is drawn and removed, the rest keeping their order, and it is a valid, no longer available line index; nothing but the pool changes |
| DialogueSets.DrainPool | DialogueEditor/Assets/Scripts/Dialogue/Datas/DialogueSet.cs:239-250 | drawing as often as a stored pool is long returns each of its elements once and leaves it empty, not null |
| DialogueSets.FullPassIsPermutation | DialogueEditor/Assets/Scripts/Dialogue/Datas/DialogueSet.cs:229-251 | a full pass from a null pool is a permutation of the line indexes |
| DialogueSets.NoResetAfterExhaustion | DialogueEditor/Assets/Scripts/Dialogue/Datas/DialogueSet.cs:239-243 | after a full pass the pool is empty; the next draw gives -1 and nulls it; the one after starts a new pass, leaving every line index but the drawn one in the pool |
| DialogueSets.DrainPoolKeepsLines | DialogueEditor/Assets/Scripts/Dialogue/Datas/DialogueSet.cs:229-251 | draws change nothing but the pool |
| DialogueReading.GetNextSet | DialogueEditor/Assets/Scripts/Dialogue/Reader/DialogueReader.cs:224 | the first set with the token, or null exactly when no set has it |
| DialogueReading.GetDialogueLineContent | DialogueEditor/Assets/Scripts/Dialogue/Reader/DialogueReader.cs:255-260 | an empty id gives the empty text; otherwise the descriptor lookup with its null cases |
| DialogueReading.PresentLine | DialogueEditor/Assets/Scripts/Dialogue/Reader/DialogueReader.cs:194-205 | the line-read event fires and the colour is set; a missing entry then throws, leaves the text as it was and nothing waits; otherwise the text becomes the line's locale text (or null) and the reader waits |
| DialogueReading.ShowLineAtIndex | DialogueEditor/Assets/Scripts/Dialogue/Reader/DialogueReader.cs:188-205 | the click continuation is dropped first; an index outside the set throws; otherwise the line is presented |
| DialogueReading.DisplayDialogueSet | DialogueEditor/Assets/Scripts/Dialogue/Reader/DialogueReader.cs:121-139 | displaying a set keeps the reader invariant, edits only the pools and only appends events |
| DialogueReading.NextTarget | DialogueEditor/Assets/Scripts/Dialogue/Reader/DialogueReader.cs:219-231 | the next line of the set, or index 0 of the set the line (end of a sequential set) or the last line (single-line or exhausted random set) links to |
| DialogueReading.FinishLineWait | DialogueEditor/Assets/Scripts/Dialogue/Reader/DialogueReader.cs:233-246 | finishing a line's wait keeps the reader invariant |
| DialogueReading.Step | DialogueEditor/Assets/Scripts/Dialogue/Reader/DialogueReader.cs:95-106 | every admitted input (`InputOk`) keeps the reader invariant, leaves the script as it was and only appends events |
| DialogueReading.Run | DialogueEditor/Assets/Scripts/Dialogue/Reader/DialogueReader.cs:291-295 | any run of inputs keeps the invariant and only appends events |
| DialogueReading.Play | DialogueEditor/Assets/Scripts/Dialogue/Reader/DialogueReader.cs:270-274 | repeated elapsed waits keep the invariant |
| DialogueReading.MissingSetEndsReading | DialogueEditor/Assets/Scripts/Dialogue/Reader/DialogueReader.cs:123-128 | a null set fires the end event and empties the text |
| DialogueReading.UnhandledClickIgnored | DialogueEditor/Assets/Scripts/Dialogue/Reader/DialogueReader.cs:291-295 | a click with no registered continuation has no effect, whatever the reader is doing |
| DialogueReading.ClickRunsContinuation | DialogueEditor/Assets/Scripts/Dialogue/Reader/DialogueReader.cs:291-295 | a click runs the registered continuation |
| DialogueReading.WaitDispatch | DialogueEditor/Assets/Scripts/Dialogue/Reader/DialogueReader.cs:233-246 | after a line's wait: continue at once, register the click continuation, or start a timer, by waiting type |
| DialogueReading.TimerRunsTarget | DialogueEditor/Assets/Scripts/Dialogue/Reader/DialogueReader.cs:270-274 | an elapsed timer displays its target |
| DialogueReading.ClickAfterEndRefiresEnd | DialogueEditor/Assets/Scripts/Dialogue/Reader/DialogueReader.cs:121-128 | reaching the end from a click leaves the continuation registered, so each later click fires the end again |
| DialogueReading.AnswerSetIsOffered | DialogueEditor/Assets/Scripts/Dialogue/Reader/DialogueReader.cs:145-150 | an answer set drops the click continuation and is offered without showing a line |
| DialogueReading.AnswerChoiceShowsLine | DialogueEditor/Assets/Scripts/Dialogue/Reader/DialogueReader.cs:157-177 | a chosen answer withdraws the offer and is presented like any line (event, colour, text), then waits; a missing entry throws after the event |
| DialogueReading.AnswerFollowsLink | DialogueEditor/Assets/Scripts/Dialogue/Reader/DialogueReader.cs:177-180 | after the answer's wait, the set its link token names is displayed |
| DialogueReading.RandomSetShowsDraw | DialogueEditor/Assets/Scripts/Dialogue/Reader/DialogueReader.cs:131-133 | a random set stores the drawn pool back, then shows the drawn line as a sequential set shows an index: event, colour, text and wait, or a fault |
| DialogueReading.ReentryAfterExhaustionFaults | DialogueEditor/Assets/Scripts/Dialogue/Reader/DialogueReader.cs:132-133 | re-entering a drained random set draws -1, nulls the pool, and throws at line -1 |
| DialogueReading.StartFiresStartEvent | DialogueEditor/Assets/Scripts/Dialogue/Reader/DialogueReader.cs:95-106 | without a dialogue nothing happens; otherwise the start event comes first and the first set is displayed from index 0 |
| DialogueReading.SequentialSetShowsIndex | DialogueEditor/Assets/Scripts/Dialogue/Reader/DialogueReader.cs:131-133 | a sequential Basic set shows the line at the given index and waits in it; it throws when the index is outside the set or the entry is missing |
| DialogueReading.StartShowsFirstLine | DialogueEditor/Assets/Scripts/Dialogue/Reader/DialogueReader.cs:102-105 | starting at a sequential Basic set fires the start event and then the first line's event, and waits in line 0 |
| DialogueReading.SequentialStep | DialogueEditor/Assets/Scripts/Dialogue/Reader/DialogueReader.cs:219-237 | in a sequential set, a no-wait line is followed by the next line of the set |
| DialogueReading.SequentialSetPlaysInOrder | DialogueEditor/Assets/Scripts/Dialogue/Reader/DialogueReader.cs:188-237 | a sequential set of no-wait lines shows its lines in order, one per elapsed wait |
| DialogSets.NewDialogSet | DialogEditor/Assets/Scripts/Dialog/Datas/DialogSet.cs:51-66 | a new set has the rolled token, one line, Basic type, and is neither starting nor selected |
| DialogSets.AddNewContent | DialogEditor/Assets/Scripts/Dialog/Datas/DialogSet.cs:77-85 | the line is appended and earlier lines are untouched |
| DialogSets.ChangeType | DialogEditor/Assets/Scripts/Dialog/Datas/DialogSet.cs:91-111 | becoming Basic unlinks every line but the last; the other types change only the type |
| DialogSets.RemoveContent | DialogEditor/Assets/Scripts/Dialog/Datas/DialogSet.cs:264-268 | the first equal line is removed and the others keep their order; an absent line changes nothing |
| DialogSets.RemoveUndoesAdd | DialogEditor/Assets/Scripts/Dialog/Datas/DialogSet.cs:77-85 | removing a freshly appended, new line restores the set |
| DialogSets.ChangeTypeIdempotent | DialogEditor/Assets/Scripts/Dialog/Datas/DialogSet.cs:91-111 | retyping twice equals retyping once; a well-linked Basic set is unchanged by becoming Basic |
| DialogSets.EditingAndLinksOnlyOnLast | DialogEditor/Assets/Scripts/Dialog/Datas/DialogSet.cs:77-111 | the constructor, retyping to Basic and removing keep the link rule; appending breaks it when the last Basic line links |
| Dialogs.NewDialog | DialogEditor/Assets/Scripts/Dialog/Datas/Dialog.cs:53-58 | a new dialog has its name and id and no sets or conditions |
| Dialogs.AddSet | DialogEditor/Assets/Scripts/Dialog/Datas/Dialog.cs:73-76 | a fresh Basic, non-starting set with the rolled token is appended |
| Dialogs.AddCondition | DialogEditor/Assets/Scripts/Dialog/Datas/Dialog.cs:64-67 | the condition is appended |
| Dialogs.RemoveSet | DialogEditor/Assets/Scripts/Dialog/Datas/Dialog.cs:197-201 | the first equal set is removed when present; otherwise nothing changes |
| Dialogs.RemoveCondition | DialogEditor/Assets/Scripts/Dialog/Datas/Dialog.cs:187-191 | the first equal condition is removed when present; otherwise nothing changes |
| Dialogs.RemoveUndoesAdd | DialogEditor/Assets/Scripts/Dialog/Datas/Dialog.cs:64-76 | removing a freshly added, new set or condition restores the dialog |
| Dialogs.SetStartingDialogSet | DialogEditor/Assets/Scripts/Dialog/Datas/Dialog.cs:207-213 | exactly the sets equal to the chosen one are flagged; nothing else changes |
| Dialogs.GetStartingSet | DialogEditor/Assets/Scripts/Dialog/Datas/Dialog.cs:232-237 | the first flagged set, or the first set when none is flagged |
| Dialogs.GetNextSet | DialogEditor/Assets/Scripts/Dialog/Datas/Dialog.cs:244-247 | the first set holding the token, or null exactly when none does |
| Dialogs.NewDialogFirstSet | DialogEditor/Assets/Scripts/Dialog/Datas/Dialog.cs:53-58 | no token finds a set in a new dialog; its first added set is the starting set and the only one its token finds |
| Dialogs.StartingSetIsChosen | DialogEditor/Assets/Scripts/Dialog/Datas/Dialog.cs:207-237 | flagging a unique set makes it the only flagged one and the start; flagging an absent set falls back to the first |
| Dialogs.TokenLeadsToItsSet | DialogEditor/Assets/Scripts/Dialog/Datas/Dialog.cs:244-247 | with distinct tokens, a set's token leads back to that set |
| Dialogs.ProcessEvent | DialogEditor/Assets/Scripts/Dialog/Datas/Dialog.cs:162-181 | Delete removes the first selected set, else the first selected condition, and reports it; everything else changes nothing |
| Dialogs.DeleteRemovesOneSelectedPart | DialogEditor/Assets/Scripts/Dialog/Datas/Dialog.cs:162-175 | Delete reports a change exactly when some set or condition is selected, and then removes exactly one node; otherwise the dialog is unchanged |
| DialogReading.ShowLine | DialogEditor/Assets/Scripts/Dialog/Reader/DialogReader.cs:89-97 | a line appears in its character's colour with its locale text, or null text |
| DialogReading.ShowLines | DialogEditor/Assets/Scripts/Dialog/Reader/DialogReader.cs:86-103 | lines are shown in order until the first without a descriptor entry, which throws |
| DialogReading.DisplayDialogSet | DialogEditor/Assets/Scripts/Dialog/Reader/DialogReader.cs:77-112 | a Basic set shows its lines in order; other kinds show nothing |
| DialogReading.EnterSet | DialogEditor/Assets/Scripts/Dialog/Reader/DialogReader.cs:61-67 | a set shows its spoken lines, throws on a missing entry or an empty set, then goes to the set its last line links to, or ends |
| DialogReading.Run | DialogEditor/Assets/Scripts/Dialog/Reader/DialogReader.cs:62-69 | a walk starts at its position, stays within the dialog, and clears the text when it finishes |
| DialogReading.WalkFrom | DialogEditor/Assets/Scripts/Dialog/Reader/DialogReader.cs:60-69 | the walk from a set of a loaded dialog starts there and stays within the dialog |
| DialogReading.DisplayDialog | DialogEditor/Assets/Scripts/Dialog/Reader/DialogReader.cs:48-70 | no dialog, nothing happens; no sets, it throws; otherwise the walk starts at the starting set |
| DialogReading.NewDialogStopsEmpty | DialogEditor/Assets/Scripts/Dialog/Reader/DialogReader.cs:48-60 | reading a new dialog throws at once, before anything is shown |
| DialogReading.RunFollowsExits | DialogEditor/Assets/Scripts/Dialog/Reader/DialogReader.cs:62-67 | consecutive sets of a walk are joined by exits, and it shows what each set shows |
| DialogReading.RunEndsAtExit | DialogEditor/Assets/Scripts/Dialog/Reader/DialogReader.cs:62-69 | a walk finishes exactly at a dead end and stops exactly where a set threw |
| DialogReading.ChainedIsRoute | DialogEditor/Assets/Scripts/Dialog/Reader/DialogReader.cs:64 | sets joined by exits are joined by last-line link tokens |
| DialogReading.ShownAlongIsSpoken | DialogEditor/Assets/Scripts/Dialog/Reader/DialogReader.cs:77-112 | along a chain the shown lines are a prefix of the Basic lines, and all of them unless the last set threw |
| DialogReading.WalkFollowsLastLinks | DialogEditor/Assets/Scripts/Dialog/Reader/DialogReader.cs:62-67 | each entered set is the one the previous set's last line links to; a finished walk ends where no set holds the token |
| DialogReading.WalkShowsSpokenLines | DialogEditor/Assets/Scripts/Dialog/Reader/DialogReader.cs:60-67 | a walk shows the Basic lines of its sets in order, all of them unless it stopped |
| DialogReading.SelfLinkNeverFinishes | DialogEditor/Assets/Scripts/Dialog/Reader/DialogReader.cs:62-67 | a set whose last line links to itself is shown forever |
| DialogReading.AwaitLine | DialogEditor/Assets/Scripts/Dialog/Reader/DialogReader.cs:98-101 | a wait consumes a prefix of the signals |
| DialogReading.AwaitLines | DialogEditor/Assets/Scripts/Dialog/Reader/DialogReader.cs:82-103 | at most every line of the set finishes waiting, consuming signals |
| DialogReading.LineWaitIsEndOfWait | DialogEditor/Assets/Scripts/Dialog/Reader/DialogReader.cs:98-101 | a line's wait, started with a cleared flag, ends right after the first click (WaitForClick) or the first expiry (other types) |
| DialogReading.AwaitLinesLineByLine | DialogEditor/Assets/Scripts/Dialog/Reader/DialogReader.cs:86-103 | a set's waits consume the signals line by line, each line with a cleared flag ending at its own first click or expiry |
| DialogReading.ClickLineEndsAtFirstClick | DialogEditor/Assets/Scripts/Dialog/Reader/DialogReader.cs:98-99 | a click line's wait ends right after the first click |
| DialogReading.TimedLineEndsAtFirstTimeUp | DialogEditor/Assets/Scripts/Dialog/Reader/DialogReader.cs:100-101 | any other line's wait ends right after the first expiry, whatever the clicks |
| DialogReading.ClickDuringTimedLineIsDropped | DialogEditor/Assets/Scripts/Dialog/Reader/DialogReader.cs:98-102 | clicks during a timed line are cleared, so a following click line still waits for its own click |

## Left out

- Editor drawing, node geometry, styles, icons, mouse dragging and selection, context menus, and connection points. These are GUI state and do not affect the dialogue data.
- Asset loading: Addressables handles, the polling loop before the older walk, JSON deserialisation, `SaveDialog` (Ctrl+S) and the Lua interpreter. These are I/O; the dialogue and the descriptor are inputs instead.
- Timings, audio clips and floating-point waiting times. A wait is modelled only by the signal that ends it.
- Multicast delegates are modelled as a single continuation. In the newer reader at most one is registered at a time, because each line clears the delegate before it registers its own. In the older reader the per-set flag stands for it.
- Object identity: `List.Remove` and `==` on sets compare by value. Two equal nodes are one node here.
- The newer `Dialogue`, `Dialogue.GetFirstSet(starter)`, the `DialogueLine` and `DialogLine` classes, `DialogCondition` and the settings managers are not part of this model. The settings profile is fixed for a whole reading, while the readers fetch it again for every line, so a change of locale or colours in the middle of a reading is not modelled. The first set is a parameter of `Start`, and the new blank line is a parameter of the editing operations.
- The `m_dialogLines == null` branch of both `AddNewContent` methods is left out. Lines are always a sequence here.
- The answer handler's own UI is left out. A choice of answer is an input.
- DialogueReading.GetNextSet: the newer `Dialogue.GetNextSet(int)` is not part of this model; it is assumed to behave as the older `Dialog.GetNextSet(int)` (the first set holding the token, or null).
- DialogReading.Run: the older walk loops forever on a cycle. The model bounds it with fuel and ends with `OutOfFuel`.
- DialogReading.AwaitLines: the waits of the older reader are modelled apart from the walk, on one set at a time.
- DialogReading.EnterSet: the colour left on screen by a line whose lookup throws is not recorded. Nor is the handler delegate, which stays registered after the exception.
- DialogueReading.DisplayDialogueSet: its contract states only the invariant and what it leaves unchanged. The lemmas `MissingSetEndsReading`, `SequentialSetShowsIndex`, `AnswerSetIsOffered`, `RandomSetShowsDraw` and `ReentryAfterExhaustionFaults` state its cases.
- DialogueReading.Step: its contract states only the invariant, and only for the inputs the model admits (`InputOk`). A `Start` is admitted only while no coroutine waits and no answer set is offered. The source's `StartDisplayingDialogue` accepts it at any time and then runs a second coroutine beside the first. The model has one pending coroutine and no concurrency, so that case is not modelled. The lemmas `UnhandledClickIgnored`, `ClickRunsContinuation`, `WaitDispatch`, `TimerRunsTarget`, `AnswerChoiceShowsLine`, `AnswerFollowsLink`, `StartFiresStartEvent` and `StartShowsFirstLine` state its cases. Inputs the source never sends (the end of a wait with no coroutine waiting, a choice with no offered set or outside it) leave the reader as it was (`StrayInputsIgnored`).
- DialogueReading.Run and DialogueReading.Play: their contracts state only the invariant. Input sequences are also limited to those the model admits (`InputOk`): a `Start` comes only while nothing is in progress.

=== FILE: dialog.dfy ===
/**
 The older dialog (`Dialog`): a named graph of dialog sets, plus condition
 nodes, with the editor operations that add, remove and flag sets and the
 two lookups the older reader walks by.
 */
module Dialogs {
  import opened Wrappers
  import opened Lists
  import opened DialogSets
  import DialogueSets

  /**
   A condition node, reduced to what the dialog itself touches: a value that
   tells two nodes apart and the editor selection flag.
   */
  datatype DialogCondition = DialogCondition(id: int, isSelected: bool)

  datatype Dialog = Dialog(name: string, spreadSheetId: string, sets: seq<DialogSet>, conditions: seq<DialogCondition>)

  /** A new dialog has its name and spreadsheet id and no sets or conditions. */
  function NewDialog(name: string, spreadSheetId: string): (d: Dialog)
    ensures d.name == name && d.spreadSheetId == spreadSheetId
    ensures |d.sets| == 0 && |d.conditions| == 0
  {
    Dialog(name, spreadSheetId, [], [])
  }

  /** Appends a freshly built set; the sets already there are untouched. */
  function AddSet(d: Dialog, token: int, blank: DialogLine): (r: Dialog)
    requires 0 <= token < DialogueSets.IntMaxValue
    ensures |r.sets| == |d.sets| + 1 && r.sets[..|d.sets|] == d.sets
    ensures Last(r.sets).token == token && Last(r.sets).lines == [blank]
    ensures Last(r.sets).setType == BasicType && !Last(r.sets).isStartingSet
    ensures r.(sets := d.sets) == d
  {
    d.(sets := d.sets + [NewDialogSet(token, blank)])
  }

  /** Appends a condition node. */
  function AddCondition(d: Dialog, c: DialogCondition): (r: Dialog)
    ensures |r.conditions| == |d.conditions| + 1 && r.conditions[..|d.conditions|] == d.conditions
    ensures Last(r.conditions) == c
    ensures r.(conditions := d.conditions) == d
  {
    d.(conditions := d.conditions + [c])
  }

  /** Removes the set when the list contains it; otherwise nothing changes. */
  function RemoveSet(d: Dialog, s: DialogSet): (r: Dialog)
    ensures s !in d.sets ==> r == d
    ensures s in d.sets ==> exists i :: 0 <= i < |d.sets| && d.sets[i] == s && s !in d.sets[..i] && r.sets == d.sets[..i] + d.sets[i + 1..]
    ensures r.(sets := d.sets) == d
  {
    if s in d.sets then d.(sets := Remove(d.sets, s)) else d
  }

  /** Removes the condition when the list contains it; otherwise nothing changes. */
  function RemoveCondition(d: Dialog, c: DialogCondition): (r: Dialog)
    ensures c !in d.conditions ==> r == d
    ensures c in d.conditions ==> exists i :: 0 <= i < |d.conditions| && d.conditions[i] == c && c !in d.conditions[..i] && r.conditions == d.conditions[..i] + d.conditions[i + 1..]
    ensures r.(conditions := d.conditions) == d
  {
    if c in d.conditions then d.(conditions := Remove(d.conditions, c)) else d
  }

  /** Removing a set or condition just added, when no equal one was there, undoes the addition. */
  lemma RemoveUndoesAdd(d: Dialog, token: int, blank: DialogLine, c: DialogCondition)
    requires 0 <= token < DialogueSets.IntMaxValue
    requires NewDialogSet(token, blank) !in d.sets
    requires c !in d.conditions
    ensures RemoveSet(AddSet(d, token, blank), NewDialogSet(token, blank)) == d
    ensures RemoveCondition(AddCondition(d, c), c) == d
  {
    RemoveAppended(d.sets, NewDialogSet(token, blank));
    RemoveAppended(d.conditions, c);
  }

  /**
   Flags as starting exactly the sets equal to `start` and clears the flag on
   every other set; nothing else changes.
   */
  function SetStartingDialogSet(d: Dialog, start: DialogSet): (r: Dialog)
    ensures |r.sets| == |d.sets|
    ensures forall i :: 0 <= i < |d.sets| ==> r.sets[i].isStartingSet == (d.sets[i] == start)
    ensures forall i :: 0 <= i < |d.sets| ==> r.sets[i].(isStartingSet := d.sets[i].isStartingSet) == d.sets[i]
    ensures r.(sets := d.sets) == d
  {
    var n := |d.sets|;
    d.(sets := seq(n, i requires 0 <= i < n => d.sets[i].(isStartingSet := d.sets[i] == start)))
  }

  /**
   The set the reader starts from (`GetNextSet()`), by position: the first
   flagged set, or the first set when none is flagged. An empty list throws.
   */
  function GetStartingSet(d: Dialog): (i: nat)
    requires |d.sets| > 0
    ensures i < |d.sets|
    ensures (exists j :: 0 <= j < |d.sets| && d.sets[j].isStartingSet)
            ==> d.sets[i].isStartingSet && forall j :: 0 <= j < i ==> !d.sets[j].isStartingSet
    ensures (forall j :: 0 <= j < |d.sets| ==> !d.sets[j].isStartingSet) ==> i == 0
  {
    match FirstIndexWhere(d.sets, (s: DialogSet) => s.isStartingSet)
    case None => 0
    case Some(k) => k
  }

  /** The set a token leads to (`GetNextSet(int)`), by position: the first one holding it, or none. */
  function GetNextSet(d: Dialog, token: int): (r: Option<nat>)
    ensures r.Some? ==> r.value < |d.sets| && d.sets[r.value].token == token
    ensures r.Some? ==> forall j :: 0 <= j < r.value ==> d.sets[j].token != token
    ensures r.None? <==> forall j :: 0 <= j < |d.sets| ==> d.sets[j].token != token
  {
    FirstIndexWhere(d.sets, (s: DialogSet) => s.token == token)
  }

  /**
   A new dialog leads nowhere: no token finds a set in it. Its first added
   set is the one the reader starts from, and the only one its token finds.
   */
  lemma NewDialogFirstSet(name: string, spreadSheetId: string, token: int, blank: DialogLine)
    requires 0 <= token < DialogueSets.IntMaxValue
    ensures forall t :: GetNextSet(NewDialog(name, spreadSheetId), t).None?
    ensures var d := AddSet(NewDialog(name, spreadSheetId), token, blank);
            && GetStartingSet(d) == 0
            && GetNextSet(d, token) == Some(0)
            && forall t :: t != token ==> GetNextSet(d, t).None?
  {
  }

  /**
   Flagging a set that occurs once makes it the one the reader starts from,
   and it is then the only flagged set; flagging a set not in the dialog
   leaves none flagged, so the reader falls back to the first set.
   */
  lemma StartingSetIsChosen(d: Dialog, k: nat, other: DialogSet)
    requires k < |d.sets|
    requires forall j :: 0 <= j < |d.sets| && j != k ==> d.sets[j] != d.sets[k]
    requires other !in d.sets
    ensures GetStartingSet(SetStartingDialogSet(d, d.sets[k])) == k
    ensures forall j :: 0 <= j < |d.sets| ==> (SetStartingDialogSet(d, d.sets[k]).sets[j].isStartingSet <==> j == k)
    ensures forall j :: 0 <= j < |d.sets| ==> !SetStartingDialogSet(d, other).sets[j].isStartingSet
    ensures GetStartingSet(SetStartingDialogSet(d, other)) == 0
  {
    var r := SetStartingDialogSet(d, d.sets[k]);
    assert r.sets[k].isStartingSet;
  }

  /** With distinct tokens, a set's own token leads back to it. */
  lemma TokenLeadsToItsSet(d: Dialog, k: nat)
    requires k < |d.sets|
    requires forall i, j :: 0 <= i < j < |d.sets| ==> d.sets[i].token != d.sets[j].token
    ensures GetNextSet(d, d.sets[k].token) == Some(k)
  {
    var r := GetNextSet(d, d.sets[k].token);
    assert r.Some? by {
      assert d.sets[k].token == d.sets[k].token;
    }
  }

  /** The key of a keyboard event, as far as the dialog distinguishes it. */
  datatype KeyCode = DeleteKey | SKey | OtherKey

  datatype KeyEvent = KeyEvent(isKeyDown: bool, control: bool, keyCode: KeyCode)

  /**
   Keyboard handling: Delete removes the first selected set, or, when no set
   is selected, the first selected condition, and reports a change. Any event
   with the Delete key code counts, not only a key press. Ctrl+S saves, which
   changes nothing here. Everything else is ignored.
   */
  function ProcessEvent(d: Dialog, e: KeyEvent): (r: (Dialog, bool))
    ensures e.keyCode != DeleteKey ==> r == (d, false)
    ensures e.keyCode == DeleteKey && (forall j :: 0 <= j < |d.sets| ==> !d.sets[j].isSelected)
            && (forall j :: 0 <= j < |d.conditions| ==> !d.conditions[j].isSelected)
            ==> r == (d, false)
    ensures forall i :: e.keyCode == DeleteKey && 0 <= i < |d.sets| && d.sets[i].isSelected
                        && (forall j :: 0 <= j < i ==> !d.sets[j].isSelected)
                        ==> r == (d.(sets := d.sets[..i] + d.sets[i + 1..]), true)
    ensures forall i :: e.keyCode == DeleteKey && (forall j :: 0 <= j < |d.sets| ==> !d.sets[j].isSelected)
                        && 0 <= i < |d.conditions| && d.conditions[i].isSelected
                        && (forall j :: 0 <= j < i ==> !d.conditions[j].isSelected)
                        ==> r == (d.(conditions := d.conditions[..i] + d.conditions[i + 1..]), true)
  {
    if e.keyCode != DeleteKey then (d, false)
    else match RemoveFirstSatisfying(d.sets, (s: DialogSet) => s.isSelected)
      case Some(sets) => (d.(sets := sets), true)
      case None =>
        match RemoveFirstSatisfying(d.conditions, (c: DialogCondition) => c.isSelected)
        case Some(conditions) => (d.(conditions := conditions), true)
        case None => (d, false)
  }

  /** Some set or some condition is selected (`AnyPartIsSelected`). */
  predicate AnyPartIsSelected(d: Dialog) {
    || (exists i :: 0 <= i < |d.sets| && d.sets[i].isSelected)
    || (exists i :: 0 <= i < |d.conditions| && d.conditions[i].isSelected)
  }

  predicate SetIsSelected(s: DialogSet) { s.isSelected }

  predicate ConditionIsSelected(c: DialogCondition) { c.isSelected }

  /**
   Delete reports a change exactly when some part is selected; the dialog
   then has one node fewer and keeps its name and id. When nothing is
   reported, nothing changed.
   */
  lemma DeleteRemovesOneSelectedPart(d: Dialog, e: KeyEvent)
    ensures ProcessEvent(d, e).1 <==> e.keyCode == DeleteKey && AnyPartIsSelected(d)
    ensures !ProcessEvent(d, e).1 ==> ProcessEvent(d, e).0 == d
    ensures var r := ProcessEvent(d, e).0;
            ProcessEvent(d, e).1 ==> && |r.sets| + |r.conditions| + 1 == |d.sets| + |d.conditions|
                                     && r.name == d.name && r.spreadSheetId == d.spreadSheetId
  {
    if e.keyCode == DeleteKey {
      match FirstIndexWhere(d.sets, SetIsSelected)
      case Some(i) =>
        DeleteTakesSet(d, e, i);
      case None =>
        assert forall j :: 0 <= j < |d.sets| ==> !d.sets[j].isSelected by {
          assert forall j :: 0 <= j < |d.sets| ==> !SetIsSelected(d.sets[j]);
        }
        match FirstIndexWhere(d.conditions, ConditionIsSelected)
        case Some(i) =>
          DeleteTakesCondition(d, e, i);
        case None =>
          assert forall j :: 0 <= j < |d.conditions| ==> !d.conditions[j].isSelected by {
            assert forall j :: 0 <= j < |d.conditions| ==> !ConditionIsSelected(d.conditions[j]);
          }
    }
  }

  lemma DeleteTakesSet(d: Dialog, e: KeyEvent, i: nat)
    requires e.keyCode == DeleteKey && i < |d.sets| && SetIsSelected(d.sets[i])
    requires forall j :: 0 <= j < i ==> !SetIsSelected(d.sets[j])
    ensures AnyPartIsSelected(d)
    ensures ProcessEvent(d, e) == (d.(sets := d.sets[..i] + d.sets[i + 1..]), true)
  {
    assert d.sets[i].isSelected;
  }

  lemma DeleteTakesCondition(d: Dialog, e: KeyEvent, i: nat)
    requires e.keyCode == DeleteKey && forall j :: 0 <= j < |d.sets| ==> !d.sets[j].isSelected
    requires i < |d.conditions| && ConditionIsSelected(d.conditions[i])
    requires forall j :: 0 <= j < i ==> !ConditionIsSelected(d.conditions[j])
    ensures AnyPartIsSelected(d)
    ensures ProcessEvent(d, e) == (d.(conditions := d.conditions[..i] + d.conditions[i + 1..]), true)
  {
    assert d.conditions[i].isSelected;
  }
}

=== FILE: dialog_reader.dfy ===
/**
 The older reader (`DialogReader`). It walks a dialog from its starting set,
 following the link token of each set's last line, and shows every line of
 each Basic set in order while PlayerAnswer and Condition sets show nothing.
 The walk is a function of the loaded dialog, the line descriptor and the
 settings; the waits between lines are modelled apart, as the effect of
 mouse clicks and expired timers on the per-set click flag.
 */
module DialogReading {
  import opened Wrappers
  import opened Lists
  import opened Presentation
  import opened DialogSets
  import opened Dialogs
  import DialogueEnums

  /** What the walk consults: the line descriptor, the settings profile and the reader's default font colour. */
  datatype Context = Context(descriptor: LineDescriptor, settings: DialogsSettings, fontColor: Color)

  /** Why a walk stops early: the list of sets is empty, a set has no line, or a line id has no descriptor entry. */
  datatype WalkFault = EmptyDialog | EmptySet(position: nat) | MissingLine(key: string)

  /**
   How a walk ends: no link leads further, no dialog was loaded, a runtime
   exception stopped the coroutine, or the fuel ran out (the source loops on).
   */
  datatype WalkEnd = Finished | NoDialog | Stopped(fault: WalkFault) | OutOfFuel

  /** The positions of the sets entered, the lines shown, how it ended and the text left on screen. */
  datatype Walk = Walk(visited: seq<nat>, shown: seq<DialogLine>, end: WalkEnd, text: Option<string>)

  /** How a line appears on screen: its text (`None` for the null string) and its font colour. */
  datatype Appearance = Appearance(text: Option<string>, color: Color)

  /**
   How a line with a descriptor entry appears: the colour the character
   settings give its speaker, and its text in the current locale, or null
   when the entry has no text for that locale.
   */
  function ShowLine(ctx: Context, line: DialogLine): (a: Appearance)
    requires line.key in ctx.descriptor
    ensures a.color == PickColor(ctx.settings, ctx.fontColor, line.characterIdentifier)
    ensures a.text.Some? <==> ctx.settings.currentLocalisationKey in ctx.descriptor[line.key]
    ensures a.text.Some? ==> a.text.value == ctx.descriptor[line.key][ctx.settings.currentLocalisationKey]
  {
    var text := match Lookup(ctx.descriptor, line.key, ctx.settings.currentLocalisationKey)
                case Text(v) => Some(v)
                case _ => Option.None;
    Appearance(text, PickColor(ctx.settings, ctx.fontColor, line.characterIdentifier))
  }

  /** The lines of one set that were shown, and the key whose lookup threw, if any. */
  datatype SetDisplay = SetDisplay(shown: seq<DialogLine>, missing: Option<string>)

  /**
   Shows lines one after another. A line whose id has no descriptor entry
   throws before its text is set, and no later line is shown.
   */
  function ShowLines(descriptor: LineDescriptor, lines: seq<DialogLine>): (d: SetDisplay)
    ensures d.shown <= lines
    ensures forall i :: 0 <= i < |d.shown| ==> d.shown[i].key in descriptor
    ensures d.missing.None? <==> d.shown == lines
    ensures d.missing.Some? ==> |d.shown| < |lines| && lines[|d.shown|].key !in descriptor && d.missing.value == lines[|d.shown|].key
    decreases |lines|
  {
    if |lines| == 0 then SetDisplay([], Option.None)
    else if lines[0].key !in descriptor then SetDisplay([], Some(lines[0].key))
    else
      var rest := ShowLines(descriptor, lines[1..]);
      assert lines == [lines[0]] + lines[1..];
      SetDisplay([lines[0]] + rest.shown, rest.missing)
  }

  /** The lines a set speaks: all of them for a Basic set, none for the other kinds. */
  function Spoken(s: DialogSet): seq<DialogLine> {
    if s.setType == BasicType then s.lines else []
  }

  /** Displays one set: a Basic set shows its lines in order; the other kinds show nothing. */
  function DisplayDialogSet(descriptor: LineDescriptor, s: DialogSet): (d: SetDisplay)
    ensures s.setType != BasicType ==> d == SetDisplay([], Option.None)
    ensures d.shown <= Spoken(s)
    ensures d.missing.None? <==> d.shown == Spoken(s)
    ensures forall i :: 0 <= i < |d.shown| ==> d.shown[i].key in descriptor
  {
    if s.setType == BasicType then ShowLines(descriptor, s.lines) else SetDisplay([], Option.None)
  }

  /** `q` is the set the last line of the set at `p` links to. */
  predicate Follows(d: Dialog, p: nat, q: nat) {
    p < |d.sets| && |d.sets[p].lines| > 0 && GetNextSet(d, Last(d.sets[p].lines).linkedToken) == Some(q)
  }

  /** The lines of the sets at the positions `vs`, in walking order. */
  function SpokenAlong(d: Dialog, vs: seq<nat>): seq<DialogLine>
    requires forall i :: 0 <= i < |vs| ==> vs[i] < |d.sets|
  {
    if |vs| == 0 then [] else Spoken(d.sets[vs[0]]) + SpokenAlong(d, vs[1..])
  }

  /** Where the reader goes after a set: to the set at `q`, nowhere (the walk is over), or nowhere because it threw. */
  datatype Exit = ToSet(q: nat) | DeadEnd | Throws(fault: WalkFault)

  /**
   What displaying one set does, which depends on the set, the descriptor and
   the settings only: the lines shown, the text left on screen by the last of
   them (`None` when none was shown), and the exit.
   */
  datatype SetResult = SetResult(shown: seq<DialogLine>, screen: Option<Option<string>>, exit: Exit)

  /**
   Displays the set at `p`, then reads the link token of its last line: a
   lookup that throws stops there, a set without lines throws when its last
   line is read, and otherwise the reader moves to the first set holding the
   token, if any.
   */
  function EnterSet(ctx: Context, d: Dialog, p: nat): (r: SetResult)
    requires p < |d.sets|
    ensures r.shown <= Spoken(d.sets[p])
    ensures r.exit.Throws? <==> r.shown != Spoken(d.sets[p]) || |d.sets[p].lines| == 0
    ensures r.exit.Throws? ==> r.exit.fault == EmptySet(p) || r.exit.fault.MissingLine?
    ensures r.exit == Throws(EmptySet(p)) <==> |d.sets[p].lines| == 0 && r.shown == Spoken(d.sets[p])
    ensures r.exit.ToSet? <==> !r.exit.Throws? && GetNextSet(d, Last(d.sets[p].lines).linkedToken).Some?
    ensures r.exit.ToSet? ==> Follows(d, p, r.exit.q)
    ensures r.exit == DeadEnd ==> |d.sets[p].lines| > 0 && GetNextSet(d, Last(d.sets[p].lines).linkedToken).None?
    ensures r.screen.None? <==> |r.shown| == 0
    ensures |r.shown| > 0 ==> Last(r.shown).key in ctx.descriptor && r.screen == Some(ShowLine(ctx, Last(r.shown)).text)
  {
    var shown := DisplayDialogSet(ctx.descriptor, d.sets[p]);
    var screen := if |shown.shown| == 0 then Option.None else Some(ShowLine(ctx, Last(shown.shown)).text);
    if shown.missing.Some? then SetResult(shown.shown, screen, Throws(MissingLine(shown.missing.value)))
    else if |d.sets[p].lines| == 0 then SetResult(shown.shown, screen, Throws(EmptySet(p)))
    else match GetNextSet(d, Last(d.sets[p].lines).linkedToken)
      case None => SetResult(shown.shown, screen, DeadEnd)
      case Some(q) => SetResult(shown.shown, screen, ToSet(q))
  }

  /** Every exit of the table leads to a position inside it. */
  predicate Closed(t: seq<SetResult>) {
    forall i :: 0 <= i < |t| && t[i].exit.ToSet? ==> t[i].exit.q < |t|
  }

  /** What each set of the dialog does when entered, by position. */
  function Table(ctx: Context, d: Dialog): (t: seq<SetResult>)
    ensures |t| == |d.sets| && Closed(t)
    ensures forall p :: 0 <= p < |t| ==> t[p] == EnterSet(ctx, d, p)
  {
    seq(|d.sets|, p requires 0 <= p < |d.sets| => EnterSet(ctx, d, p))
  }

  /**
   The walk from position `p` over the table, with `fuel` further sets allowed
   and `text` on screen. At a dead end the text is cleared.
   */
  function Run(t: seq<SetResult>, p: nat, fuel: nat, text: Option<string>): (w: Walk)
    requires p < |t| && Closed(t)
    ensures |w.visited| > 0 && w.visited[0] == p
    ensures forall i :: 0 <= i < |w.visited| ==> w.visited[i] < |t|
    ensures w.end.Finished? ==> w.text == Some("")
    ensures w.end == OutOfFuel ==> |w.visited| == fuel + 1
    ensures w.end != NoDialog
    decreases fuel
  {
    var r := t[p];
    var text' := if r.screen.Some? then r.screen.value else text;
    match r.exit
    case Throws(f) => Walk([p], r.shown, Stopped(f), text')
    case DeadEnd => Walk([p], r.shown, Finished, Some(""))
    case ToSet(q) =>
      if fuel == 0 then Walk([p], r.shown, OutOfFuel, text')
      else
        var w := Run(t, q, fuel - 1, text');
        Walk([p] + w.visited, r.shown + w.shown, w.end, w.text)
  }

  /** The walk from the set at `p` of a loaded dialog. */
  function WalkFrom(ctx: Context, d: Dialog, p: nat, fuel: nat, text: Option<string>): (w: Walk)
    requires p < |d.sets|
    ensures |w.visited| > 0 && w.visited[0] == p
    ensures forall i :: 0 <= i < |w.visited| ==> w.visited[i] < |d.sets|
    ensures w.end.Finished? ==> w.text == Some("")
    ensures w.end == OutOfFuel ==> |w.visited| == fuel + 1
  {
    Run(Table(ctx, d), p, fuel, text)
  }

  /**
   The whole reading: nothing happens without a dialog; an empty dialog
   throws when its first set is fetched; otherwise the walk starts at the
   starting set.
   */
  function DisplayDialog(ctx: Context, dialog: Option<Dialog>, fuel: nat, text: Option<string>): (w: Walk)
    ensures dialog.None? ==> w == Walk([], [], NoDialog, text)
    ensures dialog.Some? && |dialog.value.sets| == 0 ==> w == Walk([], [], Stopped(EmptyDialog), text)
    ensures dialog.Some? && |dialog.value.sets| > 0 ==> |w.visited| > 0 && w.visited[0] == GetStartingSet(dialog.value)
    ensures w.end.Finished? ==> w.text == Some("")
  {
    match dialog
    case None => Walk([], [], NoDialog, text)
    case Some(d) =>
      if |d.sets| == 0 then Walk([], [], Stopped(EmptyDialog), text)
      else WalkFrom(ctx, d, GetStartingSet(d), fuel, text)
  }

  /** Reading a new dialog throws at once: it has no set to start from. */
  lemma NewDialogStopsEmpty(ctx: Context, name: string, spreadSheetId: string, fuel: nat, text: Option<string>)
    ensures DisplayDialog(ctx, Some(NewDialog(name, spreadSheetId)), fuel, text) == Walk([], [], Stopped(EmptyDialog), text)
  {
  }

  /** Consecutive positions are joined by the table's exits. */
  predicate Chained(t: seq<SetResult>, vs: seq<nat>)
    decreases |vs|
  {
    |vs| <= 1 || (vs[0] < |t| && t[vs[0]].exit == ToSet(vs[1]) && Chained(t, vs[1..]))
  }

  /** The lines shown at the positions `vs`, in order. */
  function ShownAlong(t: seq<SetResult>, vs: seq<nat>): seq<DialogLine>
    requires forall i :: 0 <= i < |vs| ==> vs[i] < |t|
  {
    if |vs| == 0 then [] else t[vs[0]].shown + ShownAlong(t, vs[1..])
  }

  /** A walk goes from exit to exit and shows what each entered set shows. */
  lemma {:induction false} RunFollowsExits(t: seq<SetResult>, p: nat, fuel: nat, text: Option<string>)
    requires p < |t| && Closed(t)
    ensures var w := Run(t, p, fuel, text);
            Chained(t, w.visited) && w.shown == ShownAlong(t, w.visited)
    decreases fuel
  {
    var w := Run(t, p, fuel, text);
    var r := t[p];
    var text' := if r.screen.Some? then r.screen.value else text;
    if r.exit.ToSet? && fuel > 0 {
      var w' := Run(t, r.exit.q, fuel - 1, text');
      RunFollowsExits(t, r.exit.q, fuel - 1, text');
      assert w.visited == [p] + w'.visited;
      assert w.visited[1..] == w'.visited && w.visited[1] == r.exit.q;
    } else {
      assert w.visited == [p] && w.shown == r.shown;
      assert ShownAlong(t, [p]) == r.shown by {
        assert [p][1..] == [];
      }
    }
  }

  /**
   A walk ends as its last set's exit says: finished at a dead end, stopped
   where it threw, out of fuel only on the way to another set.
   */
  lemma {:induction false} RunEndsAtExit(t: seq<SetResult>, p: nat, fuel: nat, text: Option<string>)
    requires p < |t| && Closed(t)
    ensures var w := Run(t, p, fuel, text);
            && (w.end.Finished? <==> t[Last(w.visited)].exit == DeadEnd)
            && (w.end.Stopped? <==> t[Last(w.visited)].exit.Throws?)
            && (w.end.Stopped? ==> w.end.fault == t[Last(w.visited)].exit.fault)
            && (w.end == OutOfFuel <==> t[Last(w.visited)].exit.ToSet?)
    decreases fuel
  {
    var w := Run(t, p, fuel, text);
    var r := t[p];
    var text' := if r.screen.Some? then r.screen.value else text;
    if r.exit.ToSet? && fuel > 0 {
      var w' := Run(t, r.exit.q, fuel - 1, text');
      RunEndsAtExit(t, r.exit.q, fuel - 1, text');
      assert w.end == w'.end;
      assert Last(w.visited) == Last(w'.visited);
    } else {
      assert Last(w.visited) == p;
    }
  }

  /** Positions joined by the dialog's exits are joined by its link tokens. */
  lemma {:induction false} ChainedIsRoute(ctx: Context, d: Dialog, vs: seq<nat>)
    requires Chained(Table(ctx, d), vs)
    ensures IsRoute(d, vs)
    decreases |vs|
  {
    if |vs| > 1 {
      ChainedIsRoute(ctx, d, vs[1..]);
    }
  }

  /**
   Along a chain the shown lines are a prefix of the spoken ones; they are
   all of them unless the last set threw.
   */
  lemma {:induction false} ShownAlongIsSpoken(ctx: Context, d: Dialog, vs: seq<nat>)
    requires forall i :: 0 <= i < |vs| ==> vs[i] < |d.sets|
    requires Chained(Table(ctx, d), vs)
    ensures ShownAlong(Table(ctx, d), vs) <= SpokenAlong(d, vs)
    ensures |vs| > 0 && !Table(ctx, d)[Last(vs)].exit.Throws? ==> ShownAlong(Table(ctx, d), vs) == SpokenAlong(d, vs)
    decreases |vs|
  {
    if |vs| > 0 {
      var t := Table(ctx, d);
      var e := EnterSet(ctx, d, vs[0]);
      assert t[vs[0]] == e;
      if |vs| > 1 {
        ShownAlongIsSpoken(ctx, d, vs[1..]);
        assert Last(vs[1..]) == Last(vs);
        assert e.exit.ToSet?;
        assert e.shown == Spoken(d.sets[vs[0]]);
      } else {
        assert vs[1..] == [];
      }
    }
  }

  /** Each position after the first is the set the previous one's last line links to. */
  predicate IsRoute(d: Dialog, vs: seq<nat>)
    decreases |vs|
  {
    |vs| <= 1 || (Follows(d, vs[0], vs[1]) && IsRoute(d, vs[1..]))
  }

  /**
   A walk enters each set after the first through the previous set's last
   link; a finished walk stops at a set whose last line's token no set holds.
   */
  lemma WalkFollowsLastLinks(ctx: Context, d: Dialog, p: nat, fuel: nat, text: Option<string>)
    requires p < |d.sets|
    ensures IsRoute(d, WalkFrom(ctx, d, p, fuel, text).visited)
    ensures var w := WalkFrom(ctx, d, p, fuel, text);
            w.end.Finished? ==> var v := Last(w.visited);
                                |d.sets[v].lines| > 0 && GetNextSet(d, Last(d.sets[v].lines).linkedToken).None?
  {
    var t := Table(ctx, d);
    RunFollowsExits(t, p, fuel, text);
    RunEndsAtExit(t, p, fuel, text);
    var w := Run(t, p, fuel, text);
    ChainedIsRoute(ctx, d, w.visited);
    assert t[Last(w.visited)] == EnterSet(ctx, d, Last(w.visited));
  }

  /**
   What a walk shows is, in order, the lines of the Basic sets it entered;
   unless an exception stopped it, it shows all of them.
   */
  lemma WalkShowsSpokenLines(ctx: Context, d: Dialog, p: nat, fuel: nat, text: Option<string>)
    requires p < |d.sets|
    ensures var w := WalkFrom(ctx, d, p, fuel, text);
            w.shown <= SpokenAlong(d, w.visited)
    ensures var w := WalkFrom(ctx, d, p, fuel, text);
            !w.end.Stopped? ==> w.shown == SpokenAlong(d, w.visited)
  {
    var t := Table(ctx, d);
    RunFollowsExits(t, p, fuel, text);
    RunEndsAtExit(t, p, fuel, text);
    var w := Run(t, p, fuel, text);
    ShownAlongIsSpoken(ctx, d, w.visited);
  }

  /**
   A Basic set whose last line links back to itself and whose lines all have
   entries is shown again and again: the walk never finishes.
   */
  lemma {:induction false} SelfLinkNeverFinishes(ctx: Context, d: Dialog, p: nat, fuel: nat, text: Option<string>)
    requires Follows(d, p, p)
    requires DisplayDialogSet(ctx.descriptor, d.sets[p]).missing.None?
    ensures var w := WalkFrom(ctx, d, p, fuel, text);
            w.end == OutOfFuel && forall i :: 0 <= i < |w.visited| ==> w.visited[i] == p
  {
    var t := Table(ctx, d);
    assert t[p] == EnterSet(ctx, d, p);
    assert t[p].exit == ToSet(p);
    RunLoops(t, p, fuel, text);
  }

  /** A position whose exit leads back to itself is entered again until the fuel runs out. */
  lemma {:induction false} RunLoops(t: seq<SetResult>, p: nat, fuel: nat, text: Option<string>)
    requires p < |t| && Closed(t) && t[p].exit == ToSet(p)
    ensures var w := Run(t, p, fuel, text);
            w.end == OutOfFuel && forall i :: 0 <= i < |w.visited| ==> w.visited[i] == p
    decreases fuel
  {
    if fuel > 0 {
      var r := t[p];
      var text' := if r.screen.Some? then r.screen.value else text;
      RunLoops(t, p, fuel - 1, text');
      assert Run(t, p, fuel, text).visited == [p] + Run(t, p, fuel - 1, text').visited;
    }
  }

  // ----- Waiting between lines -----

  /** What can end a wait: a left mouse click, or the expiry of a line's waiting time. */
  datatype Signal = Click | TimeUp

  predicate IsClick(s: Signal) { s == Click }

  predicate IsTimeUp(s: Signal) { s == TimeUp }

  /**
   Waits for one line, starting with the click flag `flag`. A WaitForClick
   line waits until the flag is set, and a click sets it; any other line
   waits for its time to expire while clicks only set the flag. Returns the
   signals left once the wait is over, or `None` when they run out first.
   */
  function AwaitLine(wait: DialogueEnums.WaitingType, flag: bool, signals: seq<Signal>): (rest: Option<seq<Signal>>)
    ensures rest.Some? ==> |rest.value| <= |signals| && rest.value == signals[|signals| - |rest.value|..]
    decreases |signals|
  {
    if wait == DialogueEnums.WaitForClick && flag then Some(signals)
    else if |signals| == 0 then Option.None
    else if signals[0] == Click then
      if wait == DialogueEnums.WaitForClick then Some(signals[1..]) else AwaitLine(wait, true, signals[1..])
    else
      if wait == DialogueEnums.WaitForClick then AwaitLine(wait, flag, signals[1..]) else Some(signals[1..])
  }

  /** How many lines of a Basic set have finished waiting, and the signals left over. */
  datatype Progress = Progress(done: nat, rest: seq<Signal>)

  /**
   Waits for the lines of one Basic set in turn. The flag starts cleared for
   the set and is cleared again after every line.
   */
  function AwaitLines(waits: seq<DialogueEnums.WaitingType>, signals: seq<Signal>): (p: Progress)
    ensures p.done <= |waits|
    ensures |p.rest| <= |signals|
    decreases |waits|
  {
    if |waits| == 0 then Progress(0, signals)
    else match AwaitLine(waits[0], false, signals)
      case None => Progress(0, [])
      case Some(rest) =>
        var p := AwaitLines(waits[1..], rest);
        Progress(p.done + 1, p.rest)
  }

  /** A WaitForClick line ends with the first click after it is shown, whatever precedes it. */
  lemma {:induction false} ClickLineEndsAtFirstClick(signals: seq<Signal>)
    ensures AwaitLine(DialogueEnums.WaitForClick, false, signals)
            == match FirstIndexWhere(signals, IsClick)
               case None => Option.None
               case Some(j) => Some(signals[j + 1..])
    decreases |signals|
  {
    if |signals| > 0 && signals[0] != Click {
      ClickLineEndsAtFirstClick(signals[1..]);
      match FirstIndexWhere(signals[1..], IsClick)
      case None =>
      case Some(j) =>
        assert signals[1..][j + 1..] == signals[j + 2..];
    }
  }

  /** Any other line ends with the first expiry, however many clicks come before it. */
  lemma {:induction false} TimedLineEndsAtFirstTimeUp(wait: DialogueEnums.WaitingType, flag: bool, signals: seq<Signal>)
    requires wait != DialogueEnums.WaitForClick
    ensures AwaitLine(wait, flag, signals)
            == match FirstIndexWhere(signals, IsTimeUp)
               case None => Option.None
               case Some(j) => Some(signals[j + 1..])
    decreases |signals|
  {
    if |signals| > 0 && signals[0] != TimeUp {
      var rest := signals[1..];
      TimedLineEndsAtFirstTimeUp(wait, true, rest);
      ClickDuringTimedLineSetsFlag(wait, flag, signals);
      FirstIndexWhereTail(signals, IsTimeUp);
      match FirstIndexWhere(rest, IsTimeUp)
      case None =>
      case Some(j) =>
        assert rest[j + 1..] == signals[j + 2..];
    }
  }

  /** A click during a timed line only sets the flag; the line keeps waiting. */
  lemma ClickDuringTimedLineSetsFlag(wait: DialogueEnums.WaitingType, flag: bool, signals: seq<Signal>)
    requires wait != DialogueEnums.WaitForClick
    requires |signals| > 0 && signals[0] != TimeUp
    ensures AwaitLine(wait, flag, signals) == AwaitLine(wait, true, signals[1..])
  {
  }

  /**
   Reference definition of one line's wait started with a cleared flag: a
   WaitForClick line ends right after the first click, any other line right
   after the first expiry.
   */
  function EndOfWait(wait: DialogueEnums.WaitingType, signals: seq<Signal>): Option<seq<Signal>> {
    var ends := if wait == DialogueEnums.WaitForClick then IsClick else IsTimeUp;
    match FirstIndexWhere(signals, ends)
    case None => Option.None
    case Some(j) => Some(signals[j + 1..])
  }

  /** Reference definition of a set's waits: each line in turn, by `EndOfWait`. */
  function AwaitLinesByEnds(waits: seq<DialogueEnums.WaitingType>, signals: seq<Signal>): Progress
    decreases |waits|
  {
    if |waits| == 0 then Progress(0, signals)
    else match EndOfWait(waits[0], signals)
      case None => Progress(0, [])
      case Some(rest) =>
        var p := AwaitLinesByEnds(waits[1..], rest);
        Progress(p.done + 1, p.rest)
  }

  /** A line's wait started with a cleared flag is `EndOfWait`, whatever its waiting type. */
  lemma LineWaitIsEndOfWait(wait: DialogueEnums.WaitingType, signals: seq<Signal>)
    ensures AwaitLine(wait, false, signals) == EndOfWait(wait, signals)
  {
    if wait == DialogueEnums.WaitForClick {
      ClickLineEndsAtFirstClick(signals);
    } else {
      TimedLineEndsAtFirstTimeUp(wait, false, signals);
    }
  }

  /**
   The waits of a set consume the signals line by line: every line, its flag
   cleared, ends at its own first click or first expiry.
   */
  lemma {:induction false} AwaitLinesLineByLine(waits: seq<DialogueEnums.WaitingType>, signals: seq<Signal>)
    ensures AwaitLines(waits, signals) == AwaitLinesByEnds(waits, signals)
    decreases |waits|
  {
    if |waits| > 0 {
      LineWaitIsEndOfWait(waits[0], signals);
      match EndOfWait(waits[0], signals)
      case None =>
      case Some(rest) =>
        AwaitLinesLineByLine(waits[1..], rest);
    }
  }

  /**
   Clicks made while a timed line is shown are dropped with the flag: a
   WaitForClick line that follows still waits for a click of its own. Had
   the flag been kept, it would have ended at once.
   */
  lemma ClickDuringTimedLineIsDropped(first: DialogueEnums.WaitingType, clicks: seq<Signal>, later: seq<Signal>)
    requires first != DialogueEnums.WaitForClick
    requires forall i :: 0 <= i < |clicks| ==> clicks[i] == Click
    requires forall i :: 0 <= i < |later| ==> later[i] == TimeUp
    ensures AwaitLines([first, DialogueEnums.WaitForClick], clicks + [TimeUp] + later).done == 1
    ensures AwaitLine(DialogueEnums.WaitForClick, true, later) == Some(later)
  {
    var signals := clicks + [TimeUp] + later;
    FirstTimeUpAfterClicks(first, clicks, later);
    ClickLineEndsAtFirstClick(later);
    assert FirstIndexWhere(later, IsClick).None?;
    var waits := [first, DialogueEnums.WaitForClick];
    assert waits[1..] == [DialogueEnums.WaitForClick];
    assert AwaitLines(waits[1..], later) == Progress(0, []);
  }

  /** A timed line facing clicks and then an expiry ends just past that expiry. */
  lemma FirstTimeUpAfterClicks(first: DialogueEnums.WaitingType, clicks: seq<Signal>, later: seq<Signal>)
    requires first != DialogueEnums.WaitForClick
    requires forall i :: 0 <= i < |clicks| ==> clicks[i] == Click
    ensures AwaitLine(first, false, clicks + [TimeUp] + later) == Some(later)
  {
    var signals := clicks + [TimeUp] + later;
    TimedLineEndsAtFirstTimeUp(first, false, signals);
    assert signals[|clicks|] == TimeUp;
    assert FirstIndexWhere(signals, IsTimeUp) == Some(|clicks|) by {
      assert forall i :: 0 <= i < |clicks| ==> signals[i] == clicks[i];
    }
    assert signals[|clicks| + 1..] == later;
  }
}

=== FILE: dialog_set.dfy ===
/**
 The older dialog set (`DialogSet`) as the node editor builds it: an ordered
 list of lines, a part token, a set type, the starting-set flag and the
 editor selection flag. Geometry, icons and styles are not modelled.
 */
module DialogSets {
  import opened Wrappers
  import opened Lists
  import DialogueEnums
  import DialogueSets

  /** Kind of an older dialog set; this enum still has the `Condition` member. */
  datatype DialogSetType = BasicType | PlayerAnswer | Condition

  /**
   An older line as the editor and the reader use it: the key into the line
   descriptor, the speaking character, how the reader proceeds after it, and
   the token of the set it links to. Timings are not modelled.
   */
  datatype DialogLine = DialogLine(key: string, characterIdentifier: string, waitingType: DialogueEnums.WaitingType, linkedToken: int)

  datatype DialogSet = DialogSet(
    token: int,
    lines: seq<DialogLine>,
    setType: DialogSetType,
    isStartingSet: bool,
    isSelected: bool)

  /** The authoring rule the editor draws by: in a Basic set only the last line shows an out point. */
  predicate LinksOnlyOnLast(s: DialogSet) {
    s.setType == BasicType ==> forall i :: 0 <= i < |s.lines| - 1 ==> s.lines[i].linkedToken == DialogueSets.NoLink
  }

  /** Appends a line; unlike the newer set, no earlier line gives up its link. */
  function AddNewContent(s: DialogSet, blank: DialogLine): (r: DialogSet)
    ensures |r.lines| == |s.lines| + 1 && Last(r.lines) == blank
    ensures r.lines[..|s.lines|] == s.lines
    ensures r.(lines := s.lines) == s
  {
    s.(lines := s.lines + [blank])
  }

  /**
   The editor constructor: a rolled token in [0, int.MaxValue), the default
   Basic type, neither starting nor selected, and the one line it adds itself.
   */
  function NewDialogSet(token: int, blank: DialogLine): (s: DialogSet)
    requires 0 <= token < DialogueSets.IntMaxValue
    ensures s.token == token && s.token != DialogueSets.NoLink
    ensures s.lines == [blank]
    ensures s.setType == BasicType && !s.isStartingSet && !s.isSelected
  {
    AddNewContent(DialogSet(token, [], BasicType, false, false), blank)
  }

  /**
   Changes the set type. Becoming Basic unlinks every line but the last;
   becoming PlayerAnswer or Condition changes nothing but the type.
   */
  function ChangeType(s: DialogSet, t: DialogSetType): (r: DialogSet)
    ensures r.setType == t && |r.lines| == |s.lines|
    ensures t == BasicType ==> forall i :: 0 <= i < |s.lines| - 1 ==> r.lines[i] == s.lines[i].(linkedToken := DialogueSets.NoLink)
    ensures t == BasicType && |s.lines| > 0 ==> Last(r.lines) == Last(s.lines)
    ensures t != BasicType ==> r.lines == s.lines
    ensures r.(setType := s.setType, lines := s.lines) == s
  {
    match t
    case BasicType =>
      var n := |s.lines|;
      var unlinked := seq(n, i requires 0 <= i < n => if i < n - 1 then s.lines[i].(linkedToken := DialogueSets.NoLink) else s.lines[i]);
      s.(setType := t, lines := unlinked)
    case _ =>
      s.(setType := t)
  }

  /** Removes the first occurrence of `line`; the other lines keep their order. */
  function RemoveContent(s: DialogSet, line: DialogLine): (r: DialogSet)
    ensures line !in s.lines ==> r == s
    ensures line in s.lines ==> exists i :: 0 <= i < |s.lines| && s.lines[i] == line && line !in s.lines[..i] && r.lines == s.lines[..i] + s.lines[i + 1..]
    ensures r.(lines := s.lines) == s
  {
    s.(lines := Remove(s.lines, line))
  }

  /** Removing a line just added, when no equal line was there, undoes the addition. */
  lemma RemoveUndoesAdd(s: DialogSet, blank: DialogLine)
    requires blank !in s.lines
    ensures RemoveContent(AddNewContent(s, blank), blank) == s
  {
    RemoveAppended(s.lines, blank);
  }

  /** Choosing the type it already has, or choosing one twice, changes nothing more. */
  lemma ChangeTypeIdempotent(s: DialogSet, t: DialogSetType)
    ensures ChangeType(ChangeType(s, t), t) == ChangeType(s, t)
    ensures LinksOnlyOnLast(s) && s.setType == BasicType ==> ChangeType(s, BasicType) == s
  {
    if LinksOnlyOnLast(s) && s.setType == BasicType {
      var r := ChangeType(s, BasicType);
      assert forall i :: 0 <= i < |s.lines| ==> r.lines[i] == s.lines[i];
    }
  }

  /**
   The constructor, becoming Basic and removing a line keep the authoring
   rule; appending a line does not, because the old last line keeps its link.
   */
  lemma {:induction false} EditingAndLinksOnlyOnLast(s: DialogSet, blank: DialogLine, line: DialogLine, token: int)
    requires 0 <= token < DialogueSets.IntMaxValue
    ensures LinksOnlyOnLast(NewDialogSet(token, blank))
    ensures LinksOnlyOnLast(ChangeType(s, BasicType))
    ensures LinksOnlyOnLast(s) ==> LinksOnlyOnLast(RemoveContent(s, line))
    ensures LinksOnlyOnLast(s) && s.setType == BasicType && |s.lines| > 0 && Last(s.lines).linkedToken != DialogueSets.NoLink
            ==> !LinksOnlyOnLast(AddNewContent(s, blank))
  {
    if LinksOnlyOnLast(s) && s.setType == BasicType {
      RemoveKeepsAllButLast(s.lines, line, (l: DialogLine) => l.linkedToken == DialogueSets.NoLink);
    }
    if s.setType == BasicType && |s.lines| > 0 {
      var r := AddNewContent(s, blank);
      assert r.lines[|s.lines| - 1] == Last(s.lines);
    }
  }
}

=== FILE: dialogue_enums.dfy ===
/**
 The closed enumerations of the newer runtime. C# enum members carry
 ordinals in declaration order, and `default(T)` is the member of ordinal 0.
 */
module DialogueEnums {
  import opened Wrappers

  /** Kind of a dialogue set. The runtime enum has no `Condition` member. */
  datatype DialogSetType = BasicType | PlayerAnswer

  /** How the reader proceeds after a line has been shown. */
  datatype WaitingType = None | WaitForClick | WaitForTime

  /** Entry points of a dialogue; there is a single one. */
  datatype DialogStarterEnum = Default

  function SetTypeOrdinal(t: DialogSetType): (n: nat)
    ensures n < 2
    ensures n == 0 <==> t == BasicType
  {
    match t
    case BasicType => 0
    case PlayerAnswer => 1
  }

  function SetTypeOfOrdinal(n: int): (r: Option<DialogSetType>)
    ensures r.Some? <==> 0 <= n < 2
  {
    if n == 0 then Some(BasicType)
    else if n == 1 then Some(PlayerAnswer)
    else Option.None
  }

  /** `default(DialogSetType)`, the value a field of that type starts with. */
  function DefaultSetType(): (t: DialogSetType)
    ensures SetTypeOrdinal(t) == 0
  {
    BasicType
  }

  /** The ordinals of `DialogSetType` are exactly 0 and 1, and they round-trip. */
  lemma SetTypeOrdinalRoundTrip(t: DialogSetType, n: int)
    ensures SetTypeOfOrdinal(SetTypeOrdinal(t)) == Some(t)
    ensures SetTypeOfOrdinal(n).Some? ==> SetTypeOrdinal(SetTypeOfOrdinal(n).value) == n
  {
  }

  function WaitingTypeOrdinal(w: WaitingType): (n: nat)
    ensures n < 3
  {
    match w
    case None => 0
    case WaitForClick => 1
    case WaitForTime => 2
  }

  /** Every waiting type, in declaration order: exactly three distinct cases. */
  function AllWaitingTypes(): (r: seq<WaitingType>)
    ensures |r| == 3
    ensures forall w: WaitingType :: r[WaitingTypeOrdinal(w)] == w
    ensures forall i :: 0 <= i < |r| ==> WaitingTypeOrdinal(r[i]) == i
  {
    [WaitingType.None, WaitForClick, WaitForTime]
  }

  function StarterOrdinal(s: DialogStarterEnum): (n: nat)
    ensures n < 1
  {
    match s
    case Default => 0
  }

  /** Every starter, in declaration order: the single `Default`. */
  function AllStarters(): (r: seq<DialogStarterEnum>)
    ensures |r| == 1
    ensures forall s: DialogStarterEnum :: r[StarterOrdinal(s)] == s
  {
    [Default]
  }
}

=== FILE: dialogue_reader.dfy ===
/**
 The newer reader (`DialogueReader`) as an explicit state machine. The Unity
 coroutines become a single pending wait, the click callback becomes a stored
 continuation, and the answer handler becomes an offered set. Every input
 (start, click, end of a wait, choice of an answer) is one `Step`.
 Exceptions the C# code would throw end the reading with a `Faulted` event.
 */
module DialogueReading {
  import opened Wrappers
  import opened Lists
  import opened DialogueEnums
  import opened DialogueSets
  import opened Presentation

  /**
   The sets of a dialogue, by position. The newer `Dialogue` class is not
   part of this model; its lookup by token is taken to behave as the older
   `Dialog.GetNextSet(int)`.
   */
  datatype Dialogue = Dialogue(sets: seq<DialogueSet>)

  /** The first set whose token is `token`, or null when no set has it. */
  function GetNextSet(d: Dialogue, token: int): (r: Option<nat>)
    ensures r.Some? ==> r.value < |d.sets| && d.sets[r.value].token == token
    ensures r.Some? ==> forall j :: 0 <= j < r.value ==> d.sets[j].token != token
    ensures r.None? <==> forall j :: 0 <= j < |d.sets| ==> d.sets[j].token != token
  {
    FirstIndexWhere(d.sets, (s: DialogueSet) => s.token == token)
  }

  /** The arguments of a `DisplayDialogueSet(set, index)` call still to be made; `setPos == None` is the null set. */
  datatype Target = Target(setPos: Option<nat>, index: int)

  /** The coroutine suspended in a wait, if any. */
  datatype Pending =
    | NoCoroutine
      /** `DisplayDialogueLineAtIndex` in the wait that follows showing the line. */
    | LineWait(setPos: nat, index: int)
      /** `DisplayDialogueLine` (an answer) in the wait that follows showing it. */
    | AnswerWait(line: DialogueLine)
      /** `WaitBeforeDisplayDialogueSet` before it displays its target. */
    | TimerWait(next: Target)

  datatype Fault = IndexOutOfRange(index: int) | MissingDescriptorEntry(key: string)

  datatype ReaderEvent = StartReading | LineRead(key: string) | EndReading | Faulted(fault: Fault)

  /**
   The reader's state. `text == None` is the null string; `onMouseClicked`
   is the continuation a click runs; `answerOffer` is the answer set whose
   lines the answer handler shows.
   */
  datatype Reader = Reader(
    dialog: Option<Dialogue>,
    descriptor: LineDescriptor,
    settings: DialogsSettings,
    fontColor: Color,
    text: Option<string>,
    color: Color,
    onMouseClicked: Option<Target>,
    pending: Pending,
    answerOffer: Option<nat>,
    events: seq<ReaderEvent>)

  datatype Input =
    | Start(first: Option<nat>, roll: nat)
    | Click(roll: nat)
    | Elapsed(roll: nat)
    | Choose(choice: nat)

  predicate TargetOk(d: Dialogue, t: Target) {
    t.setPos.Some? ==> t.setPos.value < |d.sets|
  }

  /** Everything but the random pools of the sets is left as it was. */
  predicate SameScript(d: Dialogue, d': Dialogue) {
    && |d'.sets| == |d.sets|
    && forall p :: 0 <= p < |d.sets| ==> d'.sets[p].(unusedIndexes := d.sets[p].unusedIndexes) == d.sets[p]
  }

  predicate Unedited(r: Reader, r': Reader) {
    && r'.dialog.Some? == r.dialog.Some?
    && (r.dialog.Some? ==> SameScript(r.dialog.value, r'.dialog.value))
    && r'.descriptor == r.descriptor && r'.settings == r.settings && r'.fontColor == r.fontColor
    && |r.events| <= |r'.events| && r'.events[..|r.events|] == r.events
  }

  /**
   The reachable-state invariant. A click continuation exists only while no
   coroutine waits (each line clears it before its wait), and an offered
   answer set excludes both.
   */
  predicate Inv(r: Reader) {
    match r.dialog
    case None => r.onMouseClicked.None? && r.pending.NoCoroutine? && r.answerOffer.None?
    case Some(d) =>
      && (forall p :: 0 <= p < |d.sets| ==> PoolInv(d.sets[p]))
      && (r.onMouseClicked.Some? ==> TargetOk(d, r.onMouseClicked.value))
      && (!r.pending.NoCoroutine? ==> r.onMouseClicked.None?)
      && (r.answerOffer.Some? ==> r.answerOffer.value < |d.sets| && r.pending.NoCoroutine? && r.onMouseClicked.None?)
      && (r.pending.LineWait? ==> r.pending.setPos < |d.sets| && 0 <= r.pending.index < |d.sets[r.pending.setPos].lines|)
      && (r.pending.TimerWait? ==> TargetOk(d, r.pending.next))
  }

  /** A reader that can run `DisplayDialogueSet`: loaded, with nothing waiting. */
  predicate Ready(r: Reader) {
    Inv(r) && r.dialog.Some? && r.pending.NoCoroutine? && r.answerOffer.None?
  }

  /** The text of a line: empty for an empty id, otherwise the descriptor lookup. */
  function GetDialogueLineContent(descriptor: LineDescriptor, id: string, locale: string): (c: Content)
    ensures id == "" ==> c == Text("")
    ensures id != "" && id !in descriptor ==> c == MissingEntry
    ensures id != "" && id in descriptor && locale in descriptor[id] ==> c == Text(descriptor[id][locale])
    ensures id != "" && id in descriptor && locale !in descriptor[id] ==> c == NullText
  {
    if id == "" then Text("") else Lookup(descriptor, id, locale)
  }

  /**
   Shows a line: fires the line-read event, sets the colour, then the text;
   a missing descriptor entry throws before the text is set. On success the
   coroutine suspends in `wait`.
   */
  function PresentLine(r: Reader, line: DialogueLine, wait: Pending): (r': Reader)
    ensures r'.color == PickColor(r.settings, r.fontColor, line.characterIdentifier)
    ensures r'.onMouseClicked == r.onMouseClicked && r'.answerOffer == r.answerOffer && r'.dialog == r.dialog
    ensures GetDialogueLineContent(r.descriptor, line.key, r.settings.currentLocalisationKey) == MissingEntry
            ==> r'.pending == r.pending
                && r'.events == r.events + [LineRead(line.key), Faulted(MissingDescriptorEntry(line.key))]
    ensures GetDialogueLineContent(r.descriptor, line.key, r.settings.currentLocalisationKey) != MissingEntry
            ==> r'.pending == wait && r'.events == r.events + [LineRead(line.key)]
    ensures var c := GetDialogueLineContent(r.descriptor, line.key, r.settings.currentLocalisationKey);
            && (c.Text? ==> r'.text == Some(c.value))
            && (c == NullText ==> r'.text == Option.None)
            && (c == MissingEntry ==> r'.text == r.text)
    ensures r'.(events := r.events, color := r.color, text := r.text, pending := r.pending) == r
  {
    var shown := r.(events := r.events + [LineRead(line.key)],
                    color := PickColor(r.settings, r.fontColor, line.characterIdentifier));
    match GetDialogueLineContent(r.descriptor, line.key, r.settings.currentLocalisationKey)
    case MissingEntry => shown.(events := shown.events + [Faulted(MissingDescriptorEntry(line.key))])
    case NullText => shown.(text := Option.None, pending := wait)
    case Text(s) => shown.(text := Some(s), pending := wait)
  }

  /**
   `DisplayDialogueLineAtIndex` up to its first wait: the click continuation
   is dropped, then the line at `index` is shown; an index outside the set
   throws.
   */
  function ShowLineAtIndex(r: Reader, p: nat, index: int): (r': Reader)
    requires Ready(r) && p < |r.dialog.value.sets|
    ensures Inv(r') && Unedited(r, r') && r'.dialog == r.dialog
    ensures r'.onMouseClicked.None?
    ensures !(0 <= index < |r.dialog.value.sets[p].lines|)
            ==> r'.events == r.events + [Faulted(IndexOutOfRange(index))] && r'.pending.NoCoroutine?
    ensures 0 <= index < |r.dialog.value.sets[p].lines|
            ==> r' == PresentLine(r.(onMouseClicked := Option.None), r.dialog.value.sets[p].lines[index], LineWait(p, index))
  {
    var lines := r.dialog.value.sets[p].lines;
    var cleared := r.(onMouseClicked := Option.None);
    if !(0 <= index < |lines|) then cleared.(events := r.events + [Faulted(IndexOutOfRange(index))])
    else PresentLine(cleared, lines[index], LineWait(p, index))
  }

  /**
   `DisplayDialogueSet`: a null set ends the reading (end event, empty
   text); a Basic set shows the line at `index`, or at a fresh draw of its
   pool when it plays randomly; an answer set is offered to the player.
   */
  function DisplayDialogueSet(r: Reader, t: Target, roll: nat): (r': Reader)
    requires Ready(r) && TargetOk(r.dialog.value, t)
    ensures Inv(r') && Unedited(r, r')
  {
    var d := r.dialog.value;
    match t.setPos
    case None => r.(events := r.events + [EndReading], text := Some(""))
    case Some(p) =>
      var s := d.sets[p];
      (match s.setType
       case BasicType =>
         if s.playRandomly then
           var draw := GetNextRandomIndex(s, roll);
           var drawn := r.(dialog := Some(Dialogue(d.sets[p := draw.after])));
           assert Ready(drawn);
           ShowLineAtIndex(drawn, p, draw.index)
         else
           ShowLineAtIndex(r, p, t.index)
       case PlayerAnswer =>
         r.(onMouseClicked := Option.None, answerOffer := Some(p)))
  }

  /**
   Where the reading goes after line `i` of set `p` (a Basic set): to the
   next line of the same set, or to index 0 of the set the displayed line
   links to (end of a sequential set), or of the set the LAST line links
   to (single-line sets, and random sets whose pool is used up).
   */
  function NextTarget(d: Dialogue, p: nat, i: nat): (t: Target)
    requires p < |d.sets| && i < |d.sets[p].lines|
    ensures var s := d.sets[p];
            !s.playRandomly && i + 1 == |s.lines| ==> t == Target(GetNextSet(d, s.lines[i].linkedToken), 0)
    ensures var s := d.sets[p];
            !s.playRandomly && i + 1 < |s.lines| && !s.playOnlyOneLine ==> t == Target(Some(p), i + 1)
    ensures var s := d.sets[p];
            (s.playRandomly || i + 1 < |s.lines|) && (s.playOnlyOneLine || (s.playRandomly && RemainingIndexesCount(s) == 0))
            ==> t == Target(GetNextSet(d, Last(s.lines).linkedToken), 0)
    ensures var s := d.sets[p];
            s.playRandomly && !s.playOnlyOneLine && RemainingIndexesCount(s) > 0 ==> t == Target(Some(p), i + 1)
  {
    var s := d.sets[p];
    if |s.lines| == i + 1 && !s.playRandomly then Target(GetNextSet(d, s.lines[i].linkedToken), 0)
    else if s.playOnlyOneLine || (s.playRandomly && RemainingIndexesCount(s) == 0) then Target(GetNextSet(d, Last(s.lines).linkedToken), 0)
    else Target(Some(p), i + 1)
  }

  /**
   The rest of `DisplayDialogueLineAtIndex` once its first wait is over:
   compute the next target, then continue at once (`None`), register the
   one click continuation (`WaitForClick`) or schedule it (`WaitForTime`).
   */
  function FinishLineWait(r: Reader, roll: nat): (r': Reader)
    requires Inv(r) && r.dialog.Some? && r.pending.LineWait?
    ensures Inv(r') && Unedited(r, r')
  {
    var d := r.dialog.value;
    var p := r.pending.setPos;
    var i := r.pending.index;
    var line := d.sets[p].lines[i];
    var t := NextTarget(d, p, i);
    var resumed := r.(pending := NoCoroutine);
    match line.waitingType
    case None => DisplayDialogueSet(resumed, t, roll)
    case WaitForClick => resumed.(onMouseClicked := Some(t))
    case WaitForTime => resumed.(pending := TimerWait(t))
  }

  /** Inputs the model admits: a start only on a reader with nothing in progress, naming one of its sets. */
  predicate InputOk(r: Reader, input: Input) {
    input.Start? ==>
      && r.pending.NoCoroutine? && r.answerOffer.None?
      && (r.dialog.Some? ==> TargetOk(r.dialog.value, Target(input.first, 0)))
  }

  /** One input to the reader. */
  function Step(r: Reader, input: Input): (r': Reader)
    requires Inv(r) && InputOk(r, input)
    ensures Inv(r') && Unedited(r, r')
  {
    match input
    case Start(first, roll) =>
      if r.dialog.None? then r
      else
        var r0 := r.(events := r.events + [StartReading]);
        var r' := DisplayDialogueSet(r0, Target(first, 0), roll);
        UneditedTrans(r, r0, r');
        r'
    case Click(roll) =>
      (match r.onMouseClicked
       case None => r
       case Some(t) => DisplayDialogueSet(r, t, roll))
    case Elapsed(roll) =>
      (match r.pending
       case NoCoroutine => r
       case LineWait(_, _) => FinishLineWait(r, roll)
       case AnswerWait(line) =>
         var r0 := r.(pending := NoCoroutine);
         var r' := DisplayDialogueSet(r0, Target(GetNextSet(r.dialog.value, line.linkedToken), 0), roll);
         UneditedTrans(r, r0, r');
         r'
       case TimerWait(t) =>
         var r0 := r.(pending := NoCoroutine);
         var r' := DisplayDialogueSet(r0, t, roll);
         UneditedTrans(r, r0, r');
         r')
    case Choose(k) =>
      match r.answerOffer
      case None => r
      case Some(p) =>
        var lines := r.dialog.value.sets[p].lines;
        if k < |lines| then PresentLine(r.(answerOffer := Option.None), lines[k], AnswerWait(lines[k]))
        else r
  }

  /** The reader after a sequence of inputs; an input the model does not admit ends the run there. */
  function Run(r: Reader, inputs: seq<Input>): (r': Reader)
    requires Inv(r)
    ensures Inv(r') && Unedited(r, r')
    decreases |inputs|
  {
    if |inputs| == 0 || !InputOk(r, inputs[0]) then r
    else
      var r1 := Step(r, inputs[0]);
      var r' := Run(r1, inputs[1..]);
      UneditedTrans(r, r1, r');
      r'
  }

  /** Leaving a reader unedited is transitive: pools may change at each stage, events only grow. */
  lemma UneditedTrans(r: Reader, r1: Reader, r': Reader)
    requires Unedited(r, r1) && Unedited(r1, r')
    ensures Unedited(r, r')
  {
    if r.dialog.Some? {
      var d, d1, d' := r.dialog.value, r1.dialog.value, r'.dialog.value;
      forall p | 0 <= p < |d.sets|
        ensures d'.sets[p].(unusedIndexes := d.sets[p].unusedIndexes) == d.sets[p]
      {
        assert d1.sets[p].(unusedIndexes := d.sets[p].unusedIndexes) == d.sets[p];
        assert d'.sets[p].(unusedIndexes := d1.sets[p].unusedIndexes) == d1.sets[p];
      }
    }
    assert r'.events[..|r1.events|][..|r.events|] == r'.events[..|r.events|];
  }

  /** The reader after `n` ends of a wait in a row. */
  function Play(r: Reader, n: nat, roll: nat): (r': Reader)
    requires Inv(r)
    ensures Inv(r')
    decreases n
  {
    if n == 0 then r else Play(Step(r, Elapsed(roll)), n - 1, roll)
  }

  /** `r'` is the reader `r` after `n` ends of a wait. */
  predicate IsPlay(r: Reader, n: nat, roll: nat, r': Reader)
    requires Inv(r)
  {
    r' == Play(r, n, roll)
  }

  /** `n` ends of a wait in a row, as inputs. */
  function Elapses(n: nat, roll: nat): (inputs: seq<Input>)
    ensures |inputs| == n && forall j :: 0 <= j < n ==> inputs[j] == Elapsed(roll)
  {
    if n == 0 then [] else [Elapsed(roll)] + Elapses(n - 1, roll)
  }

  /** The line-read events of `lines`, in order. */
  function LinesRead(lines: seq<DialogueLine>): seq<ReaderEvent>
  {
    if |lines| == 0 then [] else [LineRead(lines[0].key)] + LinesRead(lines[1..])
  }

  /** The line's text can be found: its id is empty or has an entry in the descriptor. */
  predicate HasContent(r: Reader, line: DialogueLine) {
    ContentFound(r.descriptor, r.settings.currentLocalisationKey, line)
  }

  predicate ContentFound(descriptor: LineDescriptor, locale: string, line: DialogueLine) {
    GetDialogueLineContent(descriptor, line.key, locale) != MissingEntry
  }

  /** A null target ends the reading: the end event fires and the text is emptied; the click continuation is left as it was. */
  lemma MissingSetEndsReading(r: Reader, index: int, roll: nat)
    requires Ready(r)
    ensures var r' := DisplayDialogueSet(r, Target(Option.None, index), roll);
            && r'.events == r.events + [EndReading]
            && r'.text == Some("")
            && r'.onMouseClicked == r.onMouseClicked
            && r'.pending.NoCoroutine?
  {
  }

  /**
   A click with no continuation registered does nothing: before a start,
   while an answer set is offered, after an end that came from no click,
   and while any coroutine waits (each line drops its continuation before
   its wait, and only registers the next one after it).
   */
  lemma UnhandledClickIgnored(r: Reader, roll: nat)
    requires Inv(r) && r.onMouseClicked.None?
    ensures Step(r, Click(roll)) == r
  {
  }

  /**
   Inputs with nothing to act on leave the reader as it was: the end of a
   wait when no coroutine waits, and a choice when no answer set is
   offered or the offered set has no such answer.
   */
  lemma StrayInputsIgnored(r: Reader, k: nat, roll: nat)
    requires Inv(r)
    ensures r.pending.NoCoroutine? ==> Step(r, Elapsed(roll)) == r
    ensures r.answerOffer.None? ==> Step(r, Choose(k)) == r
    ensures r.answerOffer.Some? && k >= |r.dialog.value.sets[r.answerOffer.value].lines| ==> Step(r, Choose(k)) == r
  {
  }

  /** A registered click continuation runs on the next click. */
  lemma ClickRunsContinuation(r: Reader, roll: nat)
    requires Inv(r) && r.onMouseClicked.Some?
    ensures Ready(r)
    ensures Step(r, Click(roll)) == DisplayDialogueSet(r, r.onMouseClicked.value, roll)
  {
  }

  /**
   When a line's wait is over, its waiting type decides how the reading goes
   on to the next target: at once, on the next click, or after a timer.
   */
  lemma WaitDispatch(r: Reader, roll: nat)
    requires Inv(r) && r.dialog.Some? && r.pending.LineWait?
    ensures var d := r.dialog.value;
            var line := d.sets[r.pending.setPos].lines[r.pending.index];
            var t := NextTarget(d, r.pending.setPos, r.pending.index);
            var r' := Step(r, Elapsed(roll));
            && (line.waitingType == WaitingType.None ==> r' == DisplayDialogueSet(r.(pending := NoCoroutine), t, roll))
            && (line.waitingType == WaitForClick ==> r' == r.(pending := NoCoroutine, onMouseClicked := Some(t)))
            && (line.waitingType == WaitForTime ==> r' == r.(pending := TimerWait(t)))
  {
  }

  /** A scheduled timer displays its target when it elapses. */
  lemma TimerRunsTarget(r: Reader, roll: nat)
    requires Inv(r) && r.dialog.Some? && r.pending.TimerWait?
    ensures Ready(r.(pending := NoCoroutine))
    ensures Step(r, Elapsed(roll)) == DisplayDialogueSet(r.(pending := NoCoroutine), r.pending.next, roll)
  {
  }

  /**
   Once the reading ended from a click continuation, that continuation is
   still registered: every further click fires the end event again.
   */
  lemma ClickAfterEndRefiresEnd(r: Reader, index: int, roll1: nat, roll2: nat)
    requires Inv(r) && r.onMouseClicked == Some(Target(Option.None, index))
    ensures var r1 := Step(r, Click(roll1));
            && r1.events == r.events + [EndReading]
            && r1.onMouseClicked == r.onMouseClicked
            && Step(r1, Click(roll2)).events == r.events + [EndReading, EndReading]
  {
  }

  /** Displaying an answer set shows nothing yet: it drops the click continuation and offers the set to the player. */
  lemma AnswerSetIsOffered(r: Reader, p: nat, index: int, roll: nat)
    requires Ready(r) && p < |r.dialog.value.sets| && r.dialog.value.sets[p].setType == PlayerAnswer
    ensures var r' := DisplayDialogueSet(r, Target(Some(p), index), roll);
            && r'.answerOffer == Some(p)
            && r'.onMouseClicked.None? && r'.pending.NoCoroutine?
            && r'.events == r.events && r'.text == r.text && r'.dialog == r.dialog
  {
  }

  /**
   Choosing answer `k` of the offered set withdraws the offer and presents
   that line: its event, colour and text, then the answer's wait, or a
   fault after the event when the line's entry is missing.
   */
  lemma AnswerChoiceShowsLine(r: Reader, k: nat)
    requires Inv(r) && r.answerOffer.Some?
    requires k < |r.dialog.value.sets[r.answerOffer.value].lines|
    ensures var line := r.dialog.value.sets[r.answerOffer.value].lines[k];
            Step(r, Choose(k)) == PresentLine(r.(answerOffer := Option.None), line, AnswerWait(line))
    ensures var line := r.dialog.value.sets[r.answerOffer.value].lines[k];
            var r1 := Step(r, Choose(k));
            && r1.answerOffer.None? && r1.onMouseClicked.None?
            && (HasContent(r, line) ==> r1.events == r.events + [LineRead(line.key)] && r1.pending == AnswerWait(line))
            && (!HasContent(r, line)
                ==> r1.events == r.events + [LineRead(line.key), Faulted(MissingDescriptorEntry(line.key))]
                    && r1.pending.NoCoroutine?)
  {
  }

  /**
   When an answer's wait is over the reading goes to the set the answer
   links to, whatever the line's waiting type.
   */
  lemma AnswerFollowsLink(r: Reader, roll: nat)
    requires Inv(r) && r.dialog.Some? && r.pending.AnswerWait?
    ensures Ready(r.(pending := NoCoroutine))
    ensures Step(r, Elapsed(roll))
            == DisplayDialogueSet(r.(pending := NoCoroutine), Target(GetNextSet(r.dialog.value, r.pending.line.linkedToken), 0), roll)
  {
  }

  /**
   A random set stores its pool draw back in the set, then shows the drawn
   line exactly as a sequential set shows the line at an index: its event,
   colour and text and its wait, or a fault.
   */
  lemma RandomSetShowsDraw(r: Reader, p: nat, index: int, roll: nat)
    requires Ready(r) && p < |r.dialog.value.sets|
    requires r.dialog.value.sets[p].setType == BasicType && r.dialog.value.sets[p].playRandomly
    ensures var draw := GetNextRandomIndex(r.dialog.value.sets[p], roll);
            var drawn := r.(dialog := Some(Dialogue(r.dialog.value.sets[p := draw.after])));
            && Ready(drawn) && p < |drawn.dialog.value.sets|
            && DisplayDialogueSet(r, Target(Some(p), index), roll) == ShowLineAtIndex(drawn, p, draw.index)
    ensures var s := r.dialog.value.sets[p];
            var draw := GetNextRandomIndex(s, roll);
            var r' := DisplayDialogueSet(r, Target(Some(p), index), roll);
            && r'.dialog.value.sets == r.dialog.value.sets[p := draw.after]
            && (0 <= draw.index < |s.lines| && HasContent(r, s.lines[draw.index]) ==>
                  r'.events == r.events + [LineRead(s.lines[draw.index].key)] && r'.pending == LineWait(p, draw.index))
            && (0 <= draw.index < |s.lines| && !HasContent(r, s.lines[draw.index]) ==>
                  r'.events == r.events + [LineRead(s.lines[draw.index].key), Faulted(MissingDescriptorEntry(s.lines[draw.index].key))]
                  && r'.pending.NoCoroutine?)
  {
  }

  /**
   Re-entering a random set whose pool was used up draws -1, and showing
   line -1 faults; the pool goes back to unset on the way.
   */
  lemma ReentryAfterExhaustionFaults(r: Reader, p: nat, index: int, roll: nat)
    requires Ready(r) && p < |r.dialog.value.sets|
    requires r.dialog.value.sets[p].setType == BasicType && r.dialog.value.sets[p].playRandomly
    requires r.dialog.value.sets[p].unusedIndexes == Some([])
    ensures var r' := DisplayDialogueSet(r, Target(Some(p), index), roll);
            && r'.events == r.events + [Faulted(IndexOutOfRange(-1))]
            && r'.dialog.value.sets[p].unusedIndexes == Option.None
            && r'.pending.NoCoroutine? && r'.onMouseClicked.None?
  {
  }

  /** Starting a loaded reader fires the start event, then displays the first set from its line 0; without a dialogue nothing happens. */
  lemma StartFiresStartEvent(r: Reader, first: Option<nat>, roll: nat)
    requires Inv(r) && InputOk(r, Start(first, roll))
    ensures r.dialog.None? ==> Step(r, Start(first, roll)) == r
    ensures r.dialog.Some? ==> Ready(r.(events := r.events + [StartReading]))
    ensures r.dialog.Some?
            ==> Step(r, Start(first, roll)) == DisplayDialogueSet(r.(events := r.events + [StartReading]), Target(first, 0), roll)
    ensures r.dialog.Some? ==> Step(r, Start(first, roll)).events[..|r.events| + 1] == r.events + [StartReading]
  {
    if r.dialog.Some? {
      var r0 := r.(events := r.events + [StartReading]);
      var r' := Step(r, Start(first, roll));
      assert r' == DisplayDialogueSet(r0, Target(first, 0), roll);
      assert r'.events[..|r0.events|] == r0.events;
    }
  }

  /**
   A sequential Basic set shows the line at the index it is displayed at,
   after dropping the click continuation: an index outside the set throws;
   otherwise the line-read event fires, then the reader waits in that line,
   or throws when the line's descriptor entry is missing.
   */
  lemma SequentialSetShowsIndex(r: Reader, p: nat, index: int, roll: nat)
    requires Ready(r) && p < |r.dialog.value.sets|
    requires r.dialog.value.sets[p].setType == BasicType && !r.dialog.value.sets[p].playRandomly
    ensures DisplayDialogueSet(r, Target(Some(p), index), roll) == ShowLineAtIndex(r, p, index)
    ensures var lines := r.dialog.value.sets[p].lines;
            var r' := DisplayDialogueSet(r, Target(Some(p), index), roll);
            && r'.dialog == r.dialog && r'.onMouseClicked.None? && r'.answerOffer.None?
            && (!(0 <= index < |lines|)
                ==> r'.events == r.events + [Faulted(IndexOutOfRange(index))] && r'.pending.NoCoroutine?)
            && (0 <= index < |lines| && HasContent(r, lines[index])
                ==> r'.events == r.events + [LineRead(lines[index].key)] && r'.pending == LineWait(p, index))
            && (0 <= index < |lines| && !HasContent(r, lines[index])
                ==> r'.events == r.events + [LineRead(lines[index].key), Faulted(MissingDescriptorEntry(lines[index].key))]
                    && r'.pending.NoCoroutine?)
  {
  }

  /**
   Starting at a sequential Basic set fires the start event, then shows
   the set's first line and waits in it.
   */
  lemma StartShowsFirstLine(r: Reader, p: nat, roll: nat)
    requires Inv(r) && InputOk(r, Start(Some(p), roll)) && r.dialog.Some?
    requires r.dialog.value.sets[p].setType == BasicType && !r.dialog.value.sets[p].playRandomly
    requires |r.dialog.value.sets[p].lines| > 0 && HasContent(r, r.dialog.value.sets[p].lines[0])
    ensures var r' := Step(r, Start(Some(p), roll));
            && r'.events == r.events + [StartReading, LineRead(r.dialog.value.sets[p].lines[0].key)]
            && r'.pending == LineWait(p, 0)
            && r'.dialog == r.dialog
  {
    StartFiresStartEvent(r, Some(p), roll);
    var r0 := r.(events := r.events + [StartReading]);
    SequentialSetShowsIndex(r0, p, 0, roll);
    assert r0.events + [LineRead(r.dialog.value.sets[p].lines[0].key)]
        == r.events + [StartReading, LineRead(r.dialog.value.sets[p].lines[0].key)];
  }

  /** In a sequential Basic set, the end of a no-wait line's wait shows the next line. */
  lemma SequentialStep(r: Reader, roll: nat)
    requires Inv(r) && r.dialog.Some? && r.pending.LineWait?
    requires var s := r.dialog.value.sets[r.pending.setPos];
             && s.setType == BasicType && !s.playRandomly && !s.playOnlyOneLine
             && r.pending.index + 1 < |s.lines|
             && s.lines[r.pending.index].waitingType == WaitingType.None
             && HasContent(r, s.lines[r.pending.index + 1])
    ensures var p, i := r.pending.setPos, r.pending.index;
            var r' := Step(r, Elapsed(roll));
            && r'.events == r.events + [LineRead(r.dialog.value.sets[p].lines[i + 1].key)]
            && r'.pending == LineWait(p, i + 1)
            && r'.dialog == r.dialog && r'.descriptor == r.descriptor && r'.settings == r.settings
  {
    var d, p, i := r.dialog.value, r.pending.setPos, r.pending.index;
    assert NextTarget(d, p, i) == Target(Some(p), i + 1);
  }

  /** `r'` is `r` after showing lines `i + 1` to `last` of set `p`, and waits in the last of them. */
  predicate PlayedThrough(r: Reader, r': Reader, p: nat, lines: seq<DialogueLine>, i: nat, last: nat)
    requires i <= last < |lines|
  {
    && r'.events == r.events + LinesRead(lines[i + 1..last + 1])
    && r'.pending == LineWait(p, last)
    && r'.dialog == r.dialog
  }

  /**
   From line `i` of set `p`, the lines up to `last` can play through:
   `p` is a sequential Basic set, the reader waits in line `i`, no line
   before `last` waits for anything, and every line after `i` has content.
   */
  predicate Playable(r: Reader, p: nat, lines: seq<DialogueLine>, i: nat, n: nat, last: nat) {
    && Inv(r) && r.dialog.Some? && r.pending == LineWait(p, i)
    && p < |r.dialog.value.sets| && r.dialog.value.sets[p].lines == lines
    && r.dialog.value.sets[p].setType == BasicType
    && !r.dialog.value.sets[p].playRandomly && !r.dialog.value.sets[p].playOnlyOneLine
    && i + n == last < |lines|
    && (forall j :: i <= j < last ==> lines[j].waitingType == WaitingType.None)
    && (forall j :: i < j <= last ==> ContentFound(r.descriptor, r.settings.currentLocalisationKey, lines[j]))
  }

  /**
   A sequential Basic set whose lines need no waiting shows its remaining
   lines one per elapsed wait, in order: from line `i`, `n` elapsed waits
   show lines `i + 1` to `last == i + n`.
   */
  lemma {:induction false} SequentialSetPlaysInOrder(r: Reader, p: nat, lines: seq<DialogueLine>, i: nat, n: nat, last: nat, roll: nat)
    returns (r': Reader)
    requires Playable(r, p, lines, i, n, last)
    ensures IsPlay(r, n, roll, r') && PlayedThrough(r, r', p, lines, i, last)
    decreases n, 1
  {
    if n == 0 {
      r' := r;
      assert lines[i + 1..last + 1] == [];
    } else {
      r' := SequentialPlayStep(r, p, lines, i, n, last, roll);
    }
  }

  /** The induction step of `SequentialSetPlaysInOrder`: one line, then the rest. */
  lemma {:induction false} SequentialPlayStep(r: Reader, p: nat, lines: seq<DialogueLine>, i: nat, n: nat, last: nat, roll: nat)
    returns (r': Reader)
    requires Playable(r, p, lines, i, n, last) && 0 < n
    ensures IsPlay(r, n, roll, r') && PlayedThrough(r, r', p, lines, i, last)
    decreases n, 0
  {
    var r1 := SequentialRunStep(r, p, lines, i, n, roll);
    r' := SequentialSetPlaysInOrder(r1, p, lines, i + 1, n - 1, last, roll);
    PlayedThroughCons(r, r1, r', p, lines, i, last);
  }

  /** The first of `n` elapsed waits of a playable set, as a separate state. */
  lemma SequentialRunStep(r: Reader, p: nat, lines: seq<DialogueLine>, i: nat, n: nat, roll: nat) returns (r1: Reader)
    requires Playable(r, p, lines, i, n, i + n) && 0 < n
    ensures Playable(r1, p, lines, i + 1, n - 1, i + n)
    ensures r1.events == r.events + [LineRead(lines[i + 1].key)] && r1.dialog == r.dialog
    ensures forall r' :: IsPlay(r1, n - 1, roll, r') ==> IsPlay(r, n, roll, r')
  {
    SequentialStep(r, roll);
    r1 := Step(r, Elapsed(roll));
    PlayableAfterStep(r, r1, p, lines, i, n);
    PlayUnfold(r, n, roll);
  }

  lemma PlayUnfold(r: Reader, n: nat, roll: nat)
    requires Inv(r) && 0 < n
    ensures Play(r, n, roll) == Play(Step(r, Elapsed(roll)), n - 1, roll)
  {
  }

  lemma PlayableAfterStep(r: Reader, r1: Reader, p: nat, lines: seq<DialogueLine>, i: nat, n: nat)
    requires Playable(r, p, lines, i, n, i + n) && 0 < n
    requires Inv(r1) && r1.dialog == r.dialog && r1.descriptor == r.descriptor && r1.settings == r.settings
    requires r1.pending == LineWait(p, i + 1)
    ensures Playable(r1, p, lines, i + 1, n - 1, i + n)
  {
  }

  lemma PlayedThroughCons(r: Reader, r1: Reader, r': Reader, p: nat, lines: seq<DialogueLine>, i: nat, last: nat)
    requires i < last < |lines|
    requires r1.events == r.events + [LineRead(lines[i + 1].key)] && r1.dialog == r.dialog
    requires PlayedThrough(r1, r', p, lines, i + 1, last)
    ensures PlayedThrough(r, r', p, lines, i, last)
  {
    EventsStep(r.events, r1.events, r'.events, lines, i, last);
  }

  /** The event log of the induction step of `SequentialSetPlaysInOrder`. */
  lemma EventsStep(before: seq<ReaderEvent>, middle: seq<ReaderEvent>, after: seq<ReaderEvent>, lines: seq<DialogueLine>, i: nat, last: nat)
    requires i < last < |lines|
    requires middle == before + [LineRead(lines[i + 1].key)]
    requires after == middle + LinesRead(lines[i + 1 + 1..last + 1])
    ensures after == before + LinesRead(lines[i + 1..last + 1])
  {
    var head, tail := [LineRead(lines[i + 1].key)], LinesRead(lines[i + 1 + 1..last + 1]);
    LinesReadCons(lines, i + 1, last + 1);
    assert (before + head) + tail == before + (head + tail);
  }

  lemma LinesReadCons(lines: seq<DialogueLine>, a: nat, b: nat)
    requires a < b <= |lines|
    ensures LinesRead(lines[a..b]) == [LineRead(lines[a].key)] + LinesRead(lines[a + 1..b])
  {
    assert lines[a..b][1..] == lines[a + 1..b];
  }
}

=== FILE: dialogue_set.dfy ===
/**
 The newer dialogue set (`DialogueSet`): an ordered list of lines with a set
 type and two playback flags, plus the random-without-replacement pool the
 reader draws from when the set plays its lines in random order.
 */
module DialogueSets {
  import opened Wrappers
  import opened Lists
  import opened DialogueEnums

  /** `int.MaxValue`, the exclusive upper bound of a freshly rolled node token. */
  const IntMaxValue: int := 0x7FFF_FFFF

  /** The link token that leads to no set. */
  const NoLink: int := -1

  /**
   A line as the set and the reader use it: the key into the line
   descriptor, the speaking character, how the reader proceeds after it,
   and the token of the set it links to. Timings and audio are not modelled.
   */
  datatype DialogueLine = DialogueLine(key: string, characterIdentifier: string, waitingType: WaitingType, linkedToken: int)

  /** `unusedIndexes` is the private pool; `None` is the null array. */
  datatype DialogueSet = DialogueSet(
    token: int,
    lines: seq<DialogueLine>,
    setType: DialogSetType,
    playOnlyOneLine: bool,
    playRandomly: bool,
    unusedIndexes: Option<seq<int>>)

  /** The authoring rule: in a Basic set every line but the last links nowhere. */
  predicate LinksOnlyOnLast(s: DialogueSet) {
    s.setType == BasicType ==> forall i :: 0 <= i < |s.lines| - 1 ==> s.lines[i].linkedToken == NoLink
  }

  /**
   Appends a line. In a Basic set that already has lines, the previous last
   line gives up its link, so only the new last line can link onwards.
   */
  function AddNewContent(s: DialogueSet, blank: DialogueLine): (r: DialogueSet)
    ensures |r.lines| == |s.lines| + 1 && Last(r.lines) == blank
    ensures forall i :: 0 <= i < |s.lines| - 1 ==> r.lines[i] == s.lines[i]
    ensures |s.lines| > 0 && s.setType == BasicType ==> r.lines[|s.lines| - 1] == Last(s.lines).(linkedToken := NoLink)
    ensures |s.lines| > 0 && s.setType != BasicType ==> r.lines[|s.lines| - 1] == Last(s.lines)
    ensures r.(lines := s.lines) == s
  {
    var lines := if s.setType == BasicType && |s.lines| > 0
                 then s.lines[..|s.lines| - 1] + [Last(s.lines).(linkedToken := NoLink)]
                 else s.lines;
    s.(lines := lines + [blank])
  }

  /**
   The editor constructor: a rolled token in [0, int.MaxValue), the default
   Basic type, both flags off, no pool, and the one line it adds itself.
   */
  function NewDialogueSet(token: int, blank: DialogueLine): (s: DialogueSet)
    requires 0 <= token < IntMaxValue
    ensures s.token == token && s.token != NoLink
    ensures |s.lines| == 1 && s.lines[0] == blank
    ensures s.setType == DefaultSetType() && !s.playOnlyOneLine && !s.playRandomly
    ensures s.unusedIndexes.None?
  {
    AddNewContent(DialogueSet(token, [], DefaultSetType(), false, false, Option.None), blank)
  }

  /**
   Changes the set type. Becoming Basic unlinks every line but the last;
   becoming PlayerAnswer keeps every line's link, since each answer branches.
   */
  function ChangeType(s: DialogueSet, t: DialogSetType): (r: DialogueSet)
    ensures r.setType == t && |r.lines| == |s.lines|
    ensures t == BasicType ==> forall i :: 0 <= i < |s.lines| - 1 ==> r.lines[i] == s.lines[i].(linkedToken := NoLink)
    ensures t == BasicType && |s.lines| > 0 ==> Last(r.lines) == Last(s.lines)
    ensures t == PlayerAnswer ==> r.lines == s.lines
    ensures r.(setType := s.setType, lines := s.lines) == s
  {
    match t
    case BasicType =>
      var n := |s.lines|;
      s.(setType := t, lines := seq(n, i requires 0 <= i < n => if i < n - 1 then s.lines[i].(linkedToken := NoLink) else s.lines[i]))
    case PlayerAnswer =>
      s.(setType := t)
  }

  /** Removes the first occurrence of `line`; the other lines keep their order. */
  function RemoveContent(s: DialogueSet, line: DialogueLine): (r: DialogueSet)
    ensures line !in s.lines ==> r == s
    ensures line in s.lines ==> exists i :: 0 <= i < |s.lines| && s.lines[i] == line && line !in s.lines[..i] && r.lines == s.lines[..i] + s.lines[i + 1..]
    ensures r.(lines := s.lines) == s
  {
    s.(lines := Remove(s.lines, line))
  }

  /** Every set built by the constructor and the three editing operations keeps the authoring rule. */
  lemma {:induction false} EditingKeepsLinksOnlyOnLast(s: DialogueSet, blank: DialogueLine, line: DialogueLine, token: int)
    requires 0 <= token < IntMaxValue
    ensures LinksOnlyOnLast(NewDialogueSet(token, blank))
    ensures LinksOnlyOnLast(ChangeType(s, BasicType))
    ensures LinksOnlyOnLast(s) ==> LinksOnlyOnLast(AddNewContent(s, blank))
    ensures LinksOnlyOnLast(s) ==> LinksOnlyOnLast(RemoveContent(s, line))
  {
    if LinksOnlyOnLast(s) && s.setType == BasicType {
      RemoveKeepsAllButLast(s.lines, line, (l: DialogueLine) => l.linkedToken == NoLink);
    }
  }

  // ----- The random pool -----

  /** The pool a draw works on: the stored one, or [0 .. count-1] when none is stored. */
  function EffectivePool(pool: Option<seq<int>>, count: nat): (p: seq<int>)
    ensures pool.Some? ==> p == pool.value
    ensures pool.None? ==> |p| == count && forall i :: 0 <= i < count ==> p[i] == i
  {
    match pool
    case Some(q) => q
    case None => Range(count)
  }

  /** The indexes 0 .. n-1 in order. */
  function Range(n: nat): (r: seq<int>)
    ensures |r| == n
    ensures forall i :: 0 <= i < n ==> r[i] == i
  {
    if n == 0 then [] else Range(n - 1) + [n - 1]
  }

  /** Number of indexes left to draw: 0 for the null pool, the pool length otherwise. */
  function RemainingIndexesCount(s: DialogueSet): (n: nat)
    ensures s.unusedIndexes.None? ==> n == 0
    ensures s.unusedIndexes.Some? ==> n == |s.unusedIndexes.value|
  {
    match s.unusedIndexes
    case None => 0
    case Some(q) => |q|
  }

  /** The pool invariant: distinct line indexes of the set. */
  predicate PoolInv(s: DialogueSet) {
    s.unusedIndexes.Some? ==> ValidPool(s.unusedIndexes.value, |s.lines|)
  }

  predicate ValidPool(p: seq<int>, count: nat) {
    && (forall i :: 0 <= i < |p| ==> 0 <= p[i] < count)
    && Distinct(p)
  }

  /** A rebuilt pool is valid. */
  lemma EffectivePoolValid(s: DialogueSet)
    requires PoolInv(s)
    ensures ValidPool(EffectivePool(s.unusedIndexes, |s.lines|), |s.lines|)
  {
    if s.unusedIndexes.None? {
      var p := EffectivePool(s.unusedIndexes, |s.lines|);
      assert forall i, j :: 0 <= i < j < |p| ==> p[i] != p[j];
    }
  }

  /** `Random.Range(0, n)` as a function of a roll: the roll itself when below `n`, wrapped round otherwise. */
  function RollPosition(roll: nat, n: nat): (k: nat)
    requires n > 0
    ensures k < n
    ensures roll < n ==> k == roll
    decreases roll
  {
    if roll < n then roll else RollPosition(roll - n, n)
  }

  datatype Draw = Draw(index: int, after: DialogueSet)

  /**
   One draw without replacement. A null pool is first rebuilt as every line
   index. An empty pool yields -1 and is set back to null; otherwise the
   element at the rolled position is returned and removed from the pool,
   the rest keeping their order. Nothing but the pool changes.
   */
  function GetNextRandomIndex(s: DialogueSet, roll: nat): (d: Draw)
    ensures d.after.(unusedIndexes := s.unusedIndexes) == s
    ensures var p := EffectivePool(s.unusedIndexes, |s.lines|);
            && (|p| == 0 ==> d.index == -1 && d.after.unusedIndexes.None?)
            && (|p| > 0 ==> d.index in p && d.after.unusedIndexes.Some?
                            && |d.after.unusedIndexes.value| == |p| - 1
                            && multiset(d.after.unusedIndexes.value) == multiset(p) - multiset{d.index})
            && (roll < |p| ==> d.index == p[roll])
    ensures var p := EffectivePool(s.unusedIndexes, |s.lines|);
            && (|p| > 0 ==> exists k :: 0 <= k < |p| && d.index == p[k] && d.after.unusedIndexes == Some(p[..k] + p[k + 1..]))
            && (roll < |p| ==> d.after.unusedIndexes == Some(p[..roll] + p[roll + 1..]))
    ensures PoolInv(s) ==> PoolInv(d.after) && (d.index == -1 || 0 <= d.index < |s.lines|)
    ensures PoolInv(s) && d.after.unusedIndexes.Some? ==> d.index !in d.after.unusedIndexes.value
  {
    var p := EffectivePool(s.unusedIndexes, |s.lines|);
    if |p| == 0 then Draw(-1, s.(unusedIndexes := Option.None))
    else
      var k := RollPosition(roll, |p|);
      var q := TakeAt(p, k);
      assert q == p[..k] + p[k + 1..];
      assert roll < |p| ==> k == roll;
      assert PoolInv(s) ==> ValidPool(q, |s.lines|) && p[k] !in q by {
        if PoolInv(s) {
          EffectivePoolValid(s);
          DistinctTakeAt(p, k);
        }
      }
      Draw(p[k], s.(unusedIndexes := Some(q)))
  }

  /** The pool without its element at position `k` (`List.RemoveAt`). */
  function TakeAt(p: seq<int>, k: nat): (q: seq<int>)
    requires k < |p|
    ensures |q| == |p| - 1
    ensures multiset(q) == multiset(p) - multiset{p[k]}
  {
    assert p == p[..k] + [p[k]] + p[k + 1..];
    p[..k] + p[k + 1..]
  }

  /** Removing one position from a distinct sequence leaves it distinct and without that element. */
  lemma DistinctTakeAt(p: seq<int>, k: nat)
    requires k < |p| && Distinct(p)
    ensures Distinct(TakeAt(p, k))
    ensures p[k] !in TakeAt(p, k)
  {
    var q := TakeAt(p, k);
    assert forall i :: 0 <= i < |q| ==> q[i] == if i < k then p[i] else p[i + 1];
    forall i, j | 0 <= i < j < |q|
      ensures q[i] != q[j]
    {
      var a := if i < k then i else i + 1;
      var b := if j < k then j else j + 1;
      assert q[i] == p[a] && q[j] == p[b];
    }
    forall i | 0 <= i < |q|
      ensures q[i] != p[k]
    {
      var a := if i < k then i else i + 1;
      assert q[i] == p[a];
    }
  }

  datatype Pass = Pass(indices: seq<int>, after: DialogueSet)

  /** Successive draws, one per roll. */
  function DrawMany(s: DialogueSet, rolls: seq<nat>): (r: Pass)
    ensures |r.indices| == |rolls|
    decreases |rolls|
  {
    if |rolls| == 0 then Pass([], s)
    else
      var d := GetNextRandomIndex(s, rolls[0]);
      var rest := DrawMany(d.after, rolls[1..]);
      Pass([d.index] + rest.indices, rest.after)
  }

  /** Drawing as often as a stored pool is long returns its elements, each once, and leaves it empty but not null. */
  lemma {:induction false} DrainPool(s: DialogueSet, rolls: seq<nat>)
    requires PoolInv(s) && s.unusedIndexes.Some?
    requires |rolls| == |s.unusedIndexes.value|
    ensures var r := DrawMany(s, rolls);
            && multiset(r.indices) == multiset(s.unusedIndexes.value)
            && Distinct(r.indices)
            && r.after.unusedIndexes == Some([])
    decreases |rolls|
  {
    if |rolls| > 0 {
      var p := s.unusedIndexes.value;
      var d := GetNextRandomIndex(s, rolls[0]);
      DrawStored(s, rolls[0]);
      DrainPool(d.after, rolls[1..]);
      var rest := DrawMany(d.after, rolls[1..]);
      assert DrawMany(s, rolls) == Pass([d.index] + rest.indices, rest.after);
      assert Distinct([d.index] + rest.indices) by {
        assert d.index !in rest.indices by {
          assert d.index !in multiset(d.after.unusedIndexes.value);
        }
        DistinctCons(d.index, rest.indices);
      }
      assert multiset([d.index] + rest.indices) == multiset(p);
    }
  }

  /** One draw from a stored, non-empty pool: the drawn index leaves the stored pool, which stays stored. */
  lemma DrawStored(s: DialogueSet, roll: nat)
    requires PoolInv(s) && s.unusedIndexes.Some? && |s.unusedIndexes.value| > 0
    ensures var d := GetNextRandomIndex(s, roll);
            && PoolInv(d.after) && d.after.unusedIndexes.Some?
            && |d.after.unusedIndexes.value| == |s.unusedIndexes.value| - 1
            && multiset(d.after.unusedIndexes.value) + multiset{d.index} == multiset(s.unusedIndexes.value)
            && d.index !in d.after.unusedIndexes.value
  {
    var d := GetNextRandomIndex(s, roll);
    assert EffectivePool(s.unusedIndexes, |s.lines|) == s.unusedIndexes.value;
    assert d.index in multiset(s.unusedIndexes.value);
  }

  lemma DistinctCons(x: int, xs: seq<int>)
    requires Distinct(xs) && x !in xs
    ensures Distinct([x] + xs)
  {
    var ys := [x] + xs;
    forall i, j | 0 <= i < j < |ys|
      ensures ys[i] != ys[j]
    {
      assert ys[j] == xs[j - 1];
      if i > 0 {
        assert ys[i] == xs[i - 1];
      }
    }
  }

  /**
   A full pass from a null pool: as many draws as the set has lines return
   every line index exactly once. The pool is then left empty, not null.
   */
  lemma {:induction false} FullPassIsPermutation(s: DialogueSet, rolls: seq<nat>)
    requires s.unusedIndexes.None?
    requires |rolls| == |s.lines|
    ensures var r := DrawMany(s, rolls);
            && multiset(r.indices) == multiset(Range(|s.lines|))
            && Distinct(r.indices)
            && (forall i :: 0 <= i < |r.indices| ==> 0 <= r.indices[i] < |s.lines|)
            && (|s.lines| > 0 ==> r.after.unusedIndexes == Some([]))
  {
    var all := Range(|s.lines|);
    if |rolls| > 0 {
      var rebuilt := s.(unusedIndexes := Some(all));
      assert GetNextRandomIndex(s, rolls[0]) == GetNextRandomIndex(rebuilt, rolls[0]);
      var r := DrawMany(s, rolls);
      assert r == DrawMany(rebuilt, rolls);
      assert PoolInv(rebuilt) by {
        EffectivePoolValid(s);
      }
      DrainPool(rebuilt, rolls);
      forall i | 0 <= i < |r.indices|
        ensures 0 <= r.indices[i] < |s.lines|
      {
        assert r.indices[i] in multiset(all);
      }
    }
  }

  /**
   The pool is not reset when it runs out: after a full pass the next draw
   returns -1 (and only then nulls the pool), and the draw after that
   starts a fresh pass: its pool is every line index but the one drawn.
   */
  lemma {:induction false} NoResetAfterExhaustion(s: DialogueSet, rolls: seq<nat>, roll1: nat, roll2: nat)
    requires s.unusedIndexes.None?
    requires |rolls| == |s.lines| > 0
    ensures var pass := DrawMany(s, rolls);
            var d1 := GetNextRandomIndex(pass.after, roll1);
            var d2 := GetNextRandomIndex(d1.after, roll2);
            && RemainingIndexesCount(pass.after) == 0
            && d1.index == -1 && d1.after.unusedIndexes.None?
            && 0 <= d2.index < |s.lines|
            && d2.after.unusedIndexes.Some?
            && multiset(d2.after.unusedIndexes.value) == multiset(Range(|s.lines|)) - multiset{d2.index}
  {
    FullPassIsPermutation(s, rolls);
    var pass := DrawMany(s, rolls);
    DrainPoolKeepsLines(s, rolls);
    var d1 := GetNextRandomIndex(pass.after, roll1);
    assert |d1.after.lines| == |s.lines|;
    assert EffectivePool(d1.after.unusedIndexes, |d1.after.lines|) == Range(|s.lines|);
  }

  /** Draws change nothing but the pool. */
  lemma {:induction false} DrainPoolKeepsLines(s: DialogueSet, rolls: seq<nat>)
    ensures DrawMany(s, rolls).after.(unusedIndexes := s.unusedIndexes) == s
    decreases |rolls|
  {
    if |rolls| > 0 {
      DrainPoolKeepsLines(GetNextRandomIndex(s, rolls[0]).after, rolls[1..]);
    }
  }
}

=== FILE: lists.dfy ===
/**
 The few operations of the C# `List<T>` and LINQ that the dialogue runtime
 relies on, as functions over sequences.
 */
module Lists {
  import opened Wrappers

  /** Position of the first element satisfying `p` (LINQ `Where(p).FirstOrDefault()`, by position). */
  function FirstIndexWhere<T>(xs: seq<T>, p: T -> bool): (r: Option<nat>)
    ensures r.Some? ==> r.value < |xs| && p(xs[r.value])
    ensures r.Some? ==> forall j :: 0 <= j < r.value ==> !p(xs[j])
    ensures r.None? <==> forall j :: 0 <= j < |xs| ==> !p(xs[j])
  {
    if |xs| == 0 then Option.None
    else if p(xs[0]) then Some(0)
    else match FirstIndexWhere(xs[1..], p)
      case None => Option.None
      case Some(k) => Some(k + 1)
  }

  /** Past a first element that fails `p`, the search continues one position further on. */
  lemma FirstIndexWhereTail<T>(xs: seq<T>, p: T -> bool)
    requires |xs| > 0 && !p(xs[0])
    ensures FirstIndexWhere(xs, p) == match FirstIndexWhere(xs[1..], p)
                                      case None => Option.None
                                      case Some(j) => Some(j + 1)
  {
  }

  /** `List.Remove(x)`: drops the first element equal to `x`, or nothing when there is none. */
  function Remove<T(==)>(xs: seq<T>, x: T): (r: seq<T>)
    ensures x !in xs ==> r == xs
    ensures x in xs ==> |r| == |xs| - 1
    ensures x in xs ==> exists i :: 0 <= i < |xs| && xs[i] == x && x !in xs[..i] && r == xs[..i] + xs[i + 1..]
    ensures multiset(r) == multiset(xs) - multiset{x}
  {
    match FirstIndexWhere(xs, (y: T) => y == x)
    case None => xs
    case Some(i) =>
      assert xs == xs[..i] + [xs[i]] + xs[i + 1..];
      assert x !in xs[..i];
      xs[..i] + xs[i + 1..]
  }

  /** Removing the element at the first position satisfying a property `p` that every equal value shares. */
  lemma {:induction false} RemoveFirstWhere<T>(xs: seq<T>, p: T -> bool, i: nat)
    requires i < |xs| && p(xs[i])
    requires forall j :: 0 <= j < i ==> !p(xs[j])
    ensures Remove(xs, xs[i]) == xs[..i] + xs[i + 1..]
  {
    var x := xs[i];
    var r := Remove(xs, x);
    var k :| 0 <= k < |xs| && xs[k] == x && x !in xs[..k] && r == xs[..k] + xs[k + 1..];
    assert forall j :: 0 <= j < i ==> xs[j] != x;
    assert forall j :: 0 <= j < k ==> xs[..k][j] == xs[j];
    assert k == i;
  }

  /**
   Removes the first element satisfying `p`, as `Where(p).FirstOrDefault()`
   followed by `Remove` does, or reports that no element satisfies it.
   */
  function RemoveFirstSatisfying<T(==)>(xs: seq<T>, p: T -> bool): (r: Option<seq<T>>)
    ensures r.None? <==> forall j :: 0 <= j < |xs| ==> !p(xs[j])
    ensures forall i :: 0 <= i < |xs| && p(xs[i]) && (forall j :: 0 <= j < i ==> !p(xs[j])) ==> r == Some(xs[..i] + xs[i + 1..])
  {
    match FirstIndexWhere(xs, p)
    case None => Option.None
    case Some(i) =>
      RemoveFirstWhere(xs, p, i);
      Some(Remove(xs, xs[i]))
  }

  /** Removing a value just appended, when it was not there before, gives back the original list. */
  lemma RemoveAppended<T>(xs: seq<T>, x: T)
    requires x !in xs
    ensures Remove(xs + [x], x) == xs
  {
    var ys := xs + [x];
    assert ys[|xs|] == x;
    var i :| 0 <= i < |ys| && ys[i] == x && x !in ys[..i] && Remove(ys, x) == ys[..i] + ys[i + 1..];
    assert ys[..|xs|] == xs;
  }

  /** A property every element but the last has survives removing one element. */
  lemma RemoveKeepsAllButLast<T>(xs: seq<T>, x: T, p: T -> bool)
    requires forall j :: 0 <= j < |xs| - 1 ==> p(xs[j])
    ensures var r := Remove(xs, x); forall j :: 0 <= j < |r| - 1 ==> p(r[j])
  {
    if x in xs {
      var r := Remove(xs, x);
      var i :| 0 <= i < |xs| && xs[i] == x && x !in xs[..i] && r == xs[..i] + xs[i + 1..];
      forall j | 0 <= j < |r| - 1
        ensures p(r[j])
      {
        if j < i {
          assert r[j] == xs[j];
        } else {
          assert r[j] == xs[j + 1];
        }
      }
    }
  }

  /** The last element, `Enumerable.Last()`; an empty list throws in C#. */
  function Last<T>(xs: seq<T>): T
    requires |xs| > 0
  {
    xs[|xs| - 1]
  }

  /** No two positions hold the same value. */
  predicate Distinct<T(==)>(xs: seq<T>) {
    forall i, j :: 0 <= i < j < |xs| ==> xs[i] != xs[j]
  }
}

=== FILE: presentation.dfy ===
/**
 What both readers share about presenting a line: the choice of font colour
 from the character colour settings, and the lookup of a line's text in the
 line descriptor, a table of tables keyed by line id and then by locale key.
 */
module Presentation {
  import opened Wrappers
  import opened Lists

  /** A font colour; its channels are opaque to the runtime logic. */
  datatype Color = Rgba(r: real, g: real, b: real, a: real)

  datatype CharacterColorSettings = CharacterColorSettings(characterIdentifier: string, characterColor: Color)

  /** The part of the settings manager's profile that the readers consult. */
  datatype DialogsSettings = DialogsSettings(
    overrideCharacterColor: bool,
    charactersColor: seq<CharacterColorSettings>,
    currentLocalisationKey: string)

  /** The line descriptor: line id -> locale key -> text. */
  type LineDescriptor = map<string, map<string, string>>

  /**
   Outcome of reading a line's text from the descriptor:
   `Text(s)` is a string, `NullText` the null string a missing locale key
   yields, `MissingEntry` the null dereference a missing line id causes.
   */
  datatype Content = Text(value: string) | NullText | MissingEntry

  /**
   The font colour of a line: the default colour when the override flag is
   set, otherwise the colour of the first settings entry naming the line's
   character, and the default colour when no entry names it.
   */
  function PickColor(settings: DialogsSettings, fontColor: Color, character: string): (c: Color)
    ensures settings.overrideCharacterColor ==> c == fontColor
    ensures !settings.overrideCharacterColor
            && (forall j :: 0 <= j < |settings.charactersColor| ==> settings.charactersColor[j].characterIdentifier != character)
            ==> c == fontColor
    ensures forall i :: (0 <= i < |settings.charactersColor|
                          && !settings.overrideCharacterColor
                          && settings.charactersColor[i].characterIdentifier == character
                          && (forall j :: 0 <= j < i ==> settings.charactersColor[j].characterIdentifier != character))
                         ==> c == settings.charactersColor[i].characterColor
  {
    if settings.overrideCharacterColor then fontColor
    else match FirstIndexWhere(settings.charactersColor, (s: CharacterColorSettings) => s.characterIdentifier == character)
      case None => fontColor
      case Some(i) => settings.charactersColor[i].characterColor
  }

  /** The descriptor lookup with no guard on the id. */
  function Lookup(descriptor: LineDescriptor, id: string, locale: string): (c: Content)
    ensures c == MissingEntry <==> id !in descriptor
    ensures c.Text? <==> id in descriptor && locale in descriptor[id]
    ensures c.Text? ==> c.value == descriptor[id][locale]
  {
    if id !in descriptor then MissingEntry
    else if locale in descriptor[id] then Text(descriptor[id][locale])
    else NullText
  }
}

=== FILE: wrappers.dfy ===
/** The Option type stands for a C# reference that may be null. */
module Wrappers {

  datatype Option<+T> = None | Some(value: T)
}
